=== FILE: README.md ===
# Minimax footmen-versus-archers agent, modelled in Dafny

This project models the combat search of a SEPIA minimax agent. The agent's footmen fight
archers on a grid with obstacles. On each turn the agent looks a fixed number of plies
ahead with depth-limited alpha-beta search and submits the joint action it finds best.

It models three source files:

- `GameUnit`: the agent's record of one unit (id, name, hp, attack damage, location), with
  its copy constructor and position accessors (`game_unit.dfy`).
- `GameState`: the snapshot the search expands.
  - The snapshot and its legality queries `validMove`, `isUnitAt`, `validAttack` and
    `movesBetween` are in `game_state.dfy`.
  - Move generation is in `combinations.dfy`: `validActions`, the cross product
    `getActionCombinations`, and the `actionsConflict` filter.
  - The child transition is in `transition.dfy`: `applyActions`, `performMove`,
    `performAttack` and `removeUnitFromGameState`.
  - `getChildren` is in `children.dfy`.
  - `action_order.dfy` shows that the order in which `applyActions` visits a footmen's
    joint action does not change the child.
  - The integer terms of `getUtility` are in `utility.dfy`.
- `MinimaxAlphaBeta`:
  - `compareGameStateChildren` and `orderChildrenWithHeuristics` are in `ordering.dfy`.
    They sit on top of a stable insertion sort in `stable_sort.dfy`.
  - `alphaBetaSearch` is in `search.dfy`. It is generic over the state type, the move
    generator and the utility.
  - `agent.dfy` instantiates the search with the game.

How the model represents the source:

- A state is an immutable value. Its units are a map from id to unit. The `footmen`,
  `archers`, `footmanLocations` and `archerLocations` collections are views of that map
  and are derived from it rather than stored.
- A joint action (`Map<Integer, Action>`) is a sequence of (unit id, action) entries, in
  the order in which they are applied.
- Every `HashMap`/`HashSet` that the code iterates is visited in ascending id order
  (`IdOrder.Ascending`).
- Reading a missing unit is a null dereference. The model represents it as `None`
  (transition) or `NullDereference` (search).
- The search's `double` values become integers extended with -infinity and +infinity
  (`Search.ExtInt`).

The model follows the code, including:

- A unit with an empty action list empties the whole cross product. It is not skipped
  (GameState.java:333-350).
- Move bounds are inclusive: a move to `x == xExtent` or `y == yExtent` is allowed
  (GameState.java:379-382).
- Children are sorted in ascending heuristic score (MinimaxAlphaBeta.java:135, 170).
  So children with more attacks and south moves are searched last, although the comment
  above the comparator calls them the promising ones.
- A level with no children returns `null` (MinimaxAlphaBeta.java:86, 118). The level
  above then dereferences that `null`. So a level throws exactly when the loop reaches,
  without a cutoff, a child whose own search returns `null` or throws (lines 91, 105).
- A child's value is the utility of the node that searching it one ply shallower returns
  (MinimaxAlphaBeta.java:91, 105). That node is a grandchild, not a backed-up minimax
  value. The model therefore states what the loop computes, and claims nothing about
  agreement with plain minimax.

## Model

| member | source | states |
|---|---|---|
| GameUnits.Copy | src/edu/cwru/sepia/agent/minimax/GameUnit.java:24-30 | the copy has the original's name, id, hp, attack damage and the same x and y coordinates |
| GameUnits.Moved | src/edu/cwru/sepia/agent/minimax/GameState.java:182-184 | a step keeps name, id, hp and attack damage and shifts x and y by exactly the direction's components |
| GameUnits.PositionsDetermineLocation | src/edu/cwru/sepia/agent/minimax/GameUnit.java:32-38 | `xPosition` and `yPosition` are the two components of the location: two units agree on both iff they stand on the same cell |
| GameUnits.CopyIsIndependent | src/edu/cwru/sepia/agent/minimax/GameUnit.java:24-38 | a copy reads exactly like the original, and stepping the copy puts it one cell away from the original, which has not moved |
| Grid.AdjacentIffStep | src/edu/cwru/sepia/agent/minimax/GameState.java:392-399 | the cells at Manhattan distance at most one are the cell itself and its four orthogonal neighbours, in both directions of the equivalence |
| GameStates.IsUnitAt | src/edu/cwru/sepia/agent/minimax/GameState.java:387-390 | a cell is occupied by a footman or an archer iff some unit of the state stands on it |
| GameStates.ValidMove | src/edu/cwru/sepia/agent/minimax/GameState.java:374-385 | a move is valid iff the destination lies in [0, xExtent] x [0, yExtent] with inclusive bounds, is not an obstacle, and no unit stands on it |
| GameStates.MovesBetweenIsManhattan | src/edu/cwru/sepia/agent/minimax/GameState.java:396-399 | `movesBetween` is the Manhattan distance of the two units' cells; it is symmetric and is 0 iff they share a cell |
| GameStates.ValidAttackIffAdjacent | src/edu/cwru/sepia/agent/minimax/GameState.java:392-399 | `validAttack` holds iff the target is on the attacker's cell or an orthogonal neighbour; diagonal targets are out of reach |
| Transition.PerformMove | src/edu/cwru/sepia/agent/minimax/GameState.java:182-191 | only the mover's coordinates change, by the direction's components; every other unit and the key set are unchanged |
| Transition.RemoveUnit | src/edu/cwru/sepia/agent/minimax/GameState.java:204-210 | exactly the unit's id leaves the state; every other unit is unchanged |
| Transition.PerformAttack | src/edu/cwru/sepia/agent/minimax/GameState.java:193-202 | it fails iff the victim is present and the attacker is missing; an absent victim makes it a no-op; otherwise the victim's hp becomes hp minus damage, and the victim is kept iff that is positive; nothing else changes |
| Transition.ChildState | src/edu/cwru/sepia/agent/minimax/GameState.java:87-95 | a child exists iff the joint action applies; its units are the applied map, it carries over the parent's extents and obstacles, and its depth is the parent's plus one |
| Transition.ApplyActionsAppend | src/edu/cwru/sepia/agent/minimax/GameState.java:163-180 | `applyActions` applies the entries one after another in order: applying a + b is applying a and then b, and a failure in a is a failure of the whole |
| Transition.ApplyActionsFrame | src/edu/cwru/sepia/agent/minimax/GameState.java:133-191 | applying a joint action to the copied units adds no unit and keeps ids, names and attack damage; each survivor ends at its start plus the sum of its own move steps, and if every unit starts alive, every survivor is alive |
| Combinations.MovesFor | src/edu/cwru/sepia/agent/minimax/GameState.java:311-315 | the list holds exactly the valid moves among the tried directions, in the directions' order |
| Combinations.AttacksFor | src/edu/cwru/sepia/agent/minimax/GameState.java:317-320 | the list holds exactly one attack by the unit on each listed enemy within reach, in the enemies' order |
| Combinations.UnitActions | src/edu/cwru/sepia/agent/minimax/GameState.java:307-322 | every listed action is legal, every legal move and every attack on an enemy in reach is listed, and moves come first in NORTH, EAST, SOUTH, WEST order |
| Combinations.ValidActions | src/edu/cwru/sepia/agent/minimax/GameState.java:304-326 | one entry per mover, in order; an entry's list holds an action iff it is a legal move of that mover or that mover's attack on an enemy in reach, and its moves come first in NORTH, EAST, SOUTH, WEST order |
| Combinations.Prefixed | src/edu/cwru/sepia/agent/minimax/GameState.java:345-349 | the result holds exactly the given combinations, each with the current unit's entry put in front |
| Combinations.Extend | src/edu/cwru/sepia/agent/minimax/GameState.java:344-350 | the result holds exactly the combinations whose first entry is one of the current unit's actions and whose remainder is a combination of the other units; its length is the product of the two counts |
| Combinations.ActionCombinations | src/edu/cwru/sepia/agent/minimax/GameState.java:328-354 | the output contains exactly the joint actions that pick one action from each unit's list, keyed by exactly those units in order; there are as many as the product of the list lengths |
| Combinations.ProductZeroIffEmptyList | src/edu/cwru/sepia/agent/minimax/GameState.java:333-350 | the cross product is empty iff some unit has an empty action list |
| Combinations.ConflictFromIff | src/edu/cwru/sepia/agent/minimax/GameState.java:357-366 | the conflict loop returns true iff some move lands on a cell already collected or two moves land on the same cell |
| Combinations.ActionsConflictIff | src/edu/cwru/sepia/agent/minimax/GameState.java:356-372 | `actionsConflict` holds iff two move entries resolve to the same cell; attack entries never conflict |
| Children.ChoiceIsFootmenTurn | src/edu/cwru/sepia/agent/minimax/GameState.java:293-295 | every combination of the footmen's lists is keyed by exactly the footmen in order; each entry is taken from that footman's list, and it is a legal move or an attack on an archer by the footman itself |
| Children.FootmenTurnApplies | src/edu/cwru/sepia/agent/minimax/GameState.java:163-202 | applying such a joint action never dereferences a missing unit, because footmen are never victims |
| Children.ChildrenOf | src/edu/cwru/sepia/agent/minimax/GameState.java:295-298 | the children are exactly the non-conflicting combinations, each paired with the state its application produces |
| Children.GetChildren | src/edu/cwru/sepia/agent/minimax/GameState.java:290-301 | every child has a non-conflicting action keyed by exactly the footman ids in order, each entry drawn from that footman's list, and a state equal to the parent after that action |
| Children.GetChildrenComplete | src/edu/cwru/sepia/agent/minimax/GameState.java:293-298 | a joint action picked from the footmen's lists is some child's action iff it does not conflict |
| Children.ChildCellsLegal | src/edu/cwru/sepia/agent/minimax/GameState.java:374-385 | in a child, every surviving unit is in bounds and off the obstacles |
| Children.ChildCellsDistinct | src/edu/cwru/sepia/agent/minimax/GameState.java:356-385 | in a child, no two surviving units share a cell |
| Children.ChildrenKeepInvariant | src/edu/cwru/sepia/agent/minimax/GameState.java:290-301 | if the parent's units are alive, in bounds, off obstacles and on distinct cells, so are every child's |
| ActionOrder.EntryStep | src/edu/cwru/sepia/agent/minimax/GameState.java:182-202 | a footman's move, or its attack on a unit that is not a footman, always applies; afterwards every footman is still present with its name and attack damage, and no unit has appeared or been renamed |
| ActionOrder.SwapMoves | src/edu/cwru/sepia/agent/minimax/GameState.java:182-191 | two different footmen's moves give the same units in either order, whatever their attack damage |
| ActionOrder.SwapMoveAttack | src/edu/cwru/sepia/agent/minimax/GameState.java:182-202 | a footman's move and another footman's attack on an archer give the same units in either order: the mover is never the victim, and damage does not depend on position |
| ActionOrder.SwapAttacks | src/edu/cwru/sepia/agent/minimax/GameState.java:193-210 | two footmen's attacks with non-negative damage give the same units in either order; on the same archer the result keeps the archer iff hp - d1 - d2 is positive, and then with exactly that hp |
| ActionOrder.SwapAdjacent | src/edu/cwru/sepia/agent/minimax/GameState.java:163-180 | swapping two adjacent entries of different footmen leaves the result of the whole joint action unchanged |
| ActionOrder.MoveToFront | src/edu/cwru/sepia/agent/minimax/GameState.java:163-180 | an entry can be moved to the front, past entries of other footmen, without changing the result |
| ActionOrder.ApplyOrderIrrelevant | src/edu/cwru/sepia/agent/minimax/GameState.java:163-202 | any two orderings of the same footmen's joint action produce the same child state |
| ActionOrder.ProperChildIsFootmenTurn | src/edu/cwru/sepia/agent/minimax/GameState.java:293-298 | the action of every child names distinct footmen, each making a valid move or attacking an archer itself |
| ActionOrder.ChildOrderIrrelevant | src/edu/cwru/sepia/agent/minimax/GameState.java:165 | whatever order the hash map of a child's action is visited in, `applyActions` yields that child's state |
| ActionOrder.NegativeDamageOrderMatters | src/edu/cwru/sepia/agent/minimax/GameState.java:193-202 | once a footman's attack damage may be negative, order does matter: two attacks on one archer leave it dead in one order and alive in the other |
| Utility.SumCounts | src/edu/cwru/sepia/agent/minimax/GameState.java:240-246 | a sum of 1-or-0 terms over the units equals the number of units whose term is 1 |
| Utility.UtilityOfLiveState | src/edu/cwru/sepia/agent/minimax/GameState.java:230-257 | when every unit is alive, the integer terms of `getUtility` (everything but the distance term) sum to the footmen's hp minus twice the archers' hp, plus 10 per footman, minus 20 per archer |
| Utility.SumRemove | src/edu/cwru/sepia/agent/minimax/GameState.java:232-246 | the stream sums split off any one unit whatever the visiting order, so the sums do not depend on the hash order |
| Utility.MoveKeepsUtility | src/edu/cwru/sepia/agent/minimax/GameState.java:252-255 | moving a unit leaves the integer terms of `getUtility` (everything but the distance term) unchanged |
| Utility.AttackUtilityGain | src/edu/cwru/sepia/agent/minimax/GameState.java:230-257 | an attack on a live archer raises the integer terms of `getUtility` (everything but the distance term) by twice the damage dealt, or by twice the remaining hp plus 20 when the archer dies |
| Ordering.Compare | src/edu/cwru/sepia/agent/minimax/MinimaxAlphaBeta.java:143-171 | the comparator is the difference of the two children's scores, 3 x attacks + 1 x south moves |
| Ordering.CompareLaws | src/edu/cwru/sepia/agent/minimax/MinimaxAlphaBeta.java:170 | compare(a, a) = 0, the comparator is antisymmetric and it is transitive |
| StableSort.SortBy | src/edu/cwru/sepia/agent/minimax/MinimaxAlphaBeta.java:135 | the sort returns a permutation of its input, ascending by key, that keeps the input order among equal keys |
| StableSort.StableSortUnique | src/edu/cwru/sepia/agent/minimax/MinimaxAlphaBeta.java:135 | two ascending sequences with the same elements of each key in the same order are equal |
| Ordering.OrderChildren | src/edu/cwru/sepia/agent/minimax/MinimaxAlphaBeta.java:134-137 | the ordered children are a permutation of the input, non-decreasing by score, and keep the input order among children of equal score |
| Ordering.OrderChildrenIsTheStableSort | src/edu/cwru/sepia/agent/minimax/MinimaxAlphaBeta.java:134-137 | any stable ascending sort by score, `Collections.sort` included, yields exactly the modelled order |
| Search.Max | src/edu/cwru/sepia/agent/minimax/MinimaxAlphaBeta.java:99 | the result is one of the arguments and no smaller than either |
| Search.Min | src/edu/cwru/sepia/agent/minimax/MinimaxAlphaBeta.java:113 | the result is one of the arguments and no larger than either |
| Search.IsMaxLevel | src/edu/cwru/sepia/agent/minimax/MinimaxAlphaBeta.java:88 | for a non-negative ply count, a level maximizes iff it is an even number of plies below the root |
| Search.LevelsAlternate | src/edu/cwru/sepia/agent/minimax/MinimaxAlphaBeta.java:88 | the root maximizes, and consecutive levels alternate between maximizing and minimizing |
| Search.NegativeOddPlysNeverMaximize | src/edu/cwru/sepia/agent/minimax/MinimaxAlphaBeta.java:88 | with a negative odd ply count, Java's remainder makes every level minimize |
| Search.FirstBest | src/edu/cwru/sepia/agent/minimax/MinimaxAlphaBeta.java:92-95 | the index holds a best value (maximum or minimum), and every earlier value is strictly worse, so the first best wins ties |
| Search.AlphaBetaSearch | src/edu/cwru/sepia/agent/minimax/MinimaxAlphaBeta.java:82-84 | at depth 0 the input node comes back unchanged |
| Search.RecordKeepsBest | src/edu/cwru/sepia/agent/minimax/MinimaxAlphaBeta.java:91-95 | after recording a child's value, `v` and `ret` are the best value seen and the first child having it; replacement happens only on strict improvement |
| Search.WindowStep | src/edu/cwru/sepia/agent/minimax/MinimaxAlphaBeta.java:96-114 | `alpha = max(v, alpha)` after the j-th child gives max(best of the first j values, initial alpha) when maximizing; `beta = min(v, beta)` gives the mirror when minimizing |
| Search.ScanStep | src/edu/cwru/sepia/agent/minimax/MinimaxAlphaBeta.java:90-95 | one iteration keeps the loop invariant: `v` and `ret` are the first best so far, alpha and beta equal their closed forms, each value is the utility of the node its child's search returned in the window in force when the loop reached it, and no earlier child triggered a cutoff |
| Search.CutIffTest | src/edu/cwru/sepia/agent/minimax/MinimaxAlphaBeta.java:96-114 | the `break` test on the loop variables (`v >= beta`, or `v <= alpha`) holds iff the best value so far reaches the initial beta (or falls to the initial alpha) |
| Search.NarrowKeepsInv | src/edu/cwru/sepia/agent/minimax/MinimaxAlphaBeta.java:96-114 | when no cutoff occurs, narrowing the window gives exactly the window in force at the next child |
| Search.ScanChildrenSpec | src/edu/cwru/sepia/agent/minimax/MinimaxAlphaBeta.java:90-115 | when the loop finishes, it examined at least one more child if there was one; every examined child was searched in the window in force then; no examined child but the last triggered a cutoff; it broke off iff the last one did; and without a break it examined every child. When it throws, it throws at a child reached without any cutoff, after the children before it were searched in their windows, and that child's own search in the window in force then returned no node, so reading `.state` fails |
| Search.AfterChildSpec | src/edu/cwru/sepia/agent/minimax/MinimaxAlphaBeta.java:96-114 | after a child is recorded: the loop breaks iff the cutoff test holds, and otherwise goes on with the narrowed window, keeping the same promise |
| Search.LevelSpec | src/edu/cwru/sepia/agent/minimax/MinimaxAlphaBeta.java:80-119 | at depth >= 1 the result is null iff there are no children, and otherwise a member of the children. The level throws `NullPointerException` exactly when its loop aborts, and then the loop had reached, without a cutoff, a child whose depth-1 search in the window in force returned no node (null, or an exception of its own), all earlier children having returned nodes. Without an exception the result is the first ordered child of best value among those examined; each value is the utility of that child's depth-1 search in the window in force when the loop reached it; the loop breaks at the first cutoff and only there, examines every child when it does not break, and never breaks when the window is open on the cutting side |
| Search.LevelOutcome | src/edu/cwru/sepia/agent/minimax/MinimaxAlphaBeta.java:86-118 | a level throws iff its loop aborts; otherwise it returns the loop's `ret`, and null iff `ret` is null |
| Search.SamePrefixSameWindow | src/edu/cwru/sepia/agent/minimax/MinimaxAlphaBeta.java:96-114 | the window in force at child n and the cutoff test after child n - 1 depend only on the first n child values |
| Search.PrefixDetermined | src/edu/cwru/sepia/agent/minimax/MinimaxAlphaBeta.java:90-114 | two runs of the loop over the same children, each searching every child in the window in force then, agree on the first n values, and so on the next window and cutoff test |
| Search.ThrowsAtUnique | src/edu/cwru/sepia/agent/minimax/MinimaxAlphaBeta.java:90-105 | the loop can throw at only one child: two descriptions of a throw have the same values before it |
| Search.FinishedNeverThrows | src/edu/cwru/sepia/agent/minimax/MinimaxAlphaBeta.java:90-115 | a loop that ends by a `break` or by running out of children never reached a child whose search returned no node |
| Search.LevelThrowsIff | src/edu/cwru/sepia/agent/minimax/MinimaxAlphaBeta.java:86-118 | a level's loop aborts having recorded the values `seen` iff the first children, as many as there are values, were searched in their windows with exactly those values and without a cutoff, and the search of the next child in its window returned no node |
| Search.PostFacts | src/edu/cwru/sepia/agent/minimax/MinimaxAlphaBeta.java:86-118 | `ret` stays null iff there are no children, and otherwise is the first best examined child, with the loop behaving as `LevelSpec` states |
| Search.StopsAtFirstCutoff | src/edu/cwru/sepia/agent/minimax/MinimaxAlphaBeta.java:96-114 | once the best value after child j reaches beta (maximizing) or falls to alpha (minimizing), the level breaks right there, having examined exactly j + 1 children |
| Search.FullWindowPicksFirstBest | src/edu/cwru/sepia/agent/minimax/MinimaxAlphaBeta.java:86-118 | with the window (-infinity, +infinity) every child is examined, and the result is the first child whose value is the maximum (or minimum) over all of them |
| Search.DepthOneFirstBest | src/edu/cwru/sepia/agent/minimax/MinimaxAlphaBeta.java:88-118 | one ply with the full window returns the first ordered child of maximal (or minimal) utility, or null when there is none |
| Search.ScanNeverAbortsAtDepthOne | src/edu/cwru/sepia/agent/minimax/MinimaxAlphaBeta.java:91 | at depth one every child's search is the child itself, so reading its state never fails |
| GameAgent.ChosenMoveKeepsInvariant | src/edu/cwru/sepia/agent/minimax/MinimaxAlphaBeta.java:86-118 | with the game plugged in, a move returned from a state whose units are alive, in bounds, off obstacles and on distinct cells is one of that state's children and has the same property |

## Left out

- Construction from the live engine: the `GameState(State.StateView)` constructor,
  `initialize(State)` and `GameUnit(Unit)` read SEPIA's state, print, and exit on I/O
  errors (GameState.java:72-131, GameUnit.java:16-22). A state is a value given to the model.
- Utility.GetUtility: models only the integer terms. The Euclidean nearest-archer distance
  term (GameState.java:248-250, 256, 259-272) is floating point and is left out. So are the
  `double` arithmetic and the `OBSERVER_ID` constant.
- Integer width: hp, damage, coordinates, scores and sums are unbounded integers. The
  source's 32-bit `int` overflow is not modelled, since it cannot arise at this game's sizes.
- Agent plumbing: the constructor's argument parsing, `initialStep`, `middleStep`,
  `terminalStep` and the save/load hooks (MinimaxAlphaBeta.java:24-63).
- SEPIA library types: `Action`, `DirectedAction`, `TargetedAction`, `Pair` and
  `GameStateChild` become local datatypes. SEPIA is not part of this model, and neither
  are the `Direction` deltas. The model uses one unit step per direction with y growing
  southwards. The proofs use only that each direction is one unit step along one axis, and
  that the four directions cover the four neighbours; the sign chosen for north and south
  does not matter to them.
- `HashMap`/`HashSet` iteration order is replaced by ascending id order. Java object
  identity in `footmen.remove(unit)` is replaced by value equality.
- GameAgent.GameChildren: the search asks for `getChildren(true)`/`getChildren(false)`,
  which `GameState` does not declare; it only has `getChildren()`, where the footmen always
  act. The search is therefore generic over the move generator. The game instance ignores
  the side flag. It yields no children for a state without footmen, where
  `getActionCombinations` would throw on an empty iterator. `Children.GetChildren` itself
  requires a footman.
- The `default` branch of `applyActions`, which prints an error: a joint action here holds
  only moves and attacks, so that branch cannot be reached.
- `orderChildrenWithHeuristics` sorts the list in place and returns it. The model returns
  a new sequence.
- Negative search depths: the depth is a natural number. In the source a negative depth
  never reaches the `depth == 0` case. The recursion goes on until some level has no
  children and returns `null`, and the level above then throws a `NullPointerException`
  reading its `state` (MinimaxAlphaBeta.java:91, 105). If every level has children, the
  stack overflows first.
- ActionOrder.ApplyOrderIrrelevant: assumes that no footman has negative attack damage.
  The source does not check this. With a negative damage, two attacks on one archer can
  leave different states depending on their order (ActionOrder.NegativeDamageOrderMatters).
- ActionOrder.ChildOrderIrrelevant: makes the same non-negative damage assumption.

=== FILE: action_order.dfy ===
/** The order in which `applyActions` visits the entries of a footmen's
    joint action does not matter: movers are footmen, victims are archers,
    and two attacks on the same archer add up. */
module ActionOrder {
  import opened Wrappers
  import opened Grid
  import opened GameUnits
  import opened GameStates
  import opened Actions
  import opened Transition
  import opened Children

  /** An entry the footmen may issue against the units `m`: a present
      footman either moves or attacks, by itself, a unit that is absent or
      not a footman. */
  predicate FootmanEntry(m: map<int, GameUnit>, e: (int, Action)) {
    && e.0 in m
    && IsFootman(m[e.0])
    && (e.1.Attack? ==> e.1.attacker == e.0 && (e.1.target in m ==> !IsFootman(m[e.1.target])))
  }

  /** No footman of `m` has negative attack damage.  The source does not
      check this; two attacks on one archer commute only under it. */
  ghost predicate DamageNonNegative(m: map<int, GameUnit>) {
    forall k :: k in m && IsFootman(m[k]) ==> m[k].attackDamage >= 0
  }

  /** `m2` arose from `m1` by footmen's entries: every footman is still
      there with its attack damage, and no unit appeared or changed name. */
  ghost predicate SameFootmen(m1: map<int, GameUnit>, m2: map<int, GameUnit>) {
    && (forall k :: k in m1 && IsFootman(m1[k]) ==>
          k in m2 && m2[k].name == m1[k].name && m2[k].attackDamage == m1[k].attackDamage)
    && (forall k :: k in m2 ==> k in m1 && m2[k].name == m1[k].name)
  }

  /** A footman's entry applies, keeps the map well keyed and keeps the
      footmen. */
  lemma EntryStep(m: map<int, GameUnit>, e: (int, Action))
    requires WellKeyed(m) && FootmanEntry(m, e)
    ensures ApplyAction(m, e).Some?
    ensures WellKeyed(ApplyAction(m, e).value)
    ensures SameFootmen(m, ApplyAction(m, e).value)
  {
  }

  /** Footmen's steps keep every footman's attack damage. */
  lemma DamageKept(m1: map<int, GameUnit>, m2: map<int, GameUnit>)
    requires SameFootmen(m1, m2) && DamageNonNegative(m1)
    ensures DamageNonNegative(m2)
  {
    forall k | k in m2 && IsFootman(m2[k])
      ensures m2[k].attackDamage >= 0
    {
      assert k in m1 && m2[k].name == m1[k].name;
      assert m2[k].attackDamage == m1[k].attackDamage;
    }
  }

  /** An entry issuable before a footmen's step is issuable after it. */
  lemma EntryKept(m1: map<int, GameUnit>, m2: map<int, GameUnit>, e: (int, Action))
    requires SameFootmen(m1, m2) && FootmanEntry(m1, e)
    ensures FootmanEntry(m2, e)
  {
    assert forall k :: k in m1 && IsFootman(m1[k]) ==>
      k in m2 && m2[k].name == m1[k].name && m2[k].attackDamage == m1[k].attackDamage;
    assert forall k :: k in m2 ==> k in m1 && m2[k].name == m1[k].name;
    assert e.0 in m1 && IsFootman(m1[e.0]);
  }

  /** Applying two entries is applying the first, then the second. */
  lemma ApplyPair(m: map<int, GameUnit>, e1: (int, Action), e2: (int, Action), rest: JointAction)
    ensures ApplyActions(m, [e1, e2] + rest) ==
      match ApplyAction(m, e1)
      case None => None
      case Some(n) =>
        match ApplyAction(n, e2)
        case None => None
        case Some(n2) => ApplyActions(n2, rest)
  {
    assert ([e1, e2] + rest)[0] == e1;
    assert ([e1, e2] + rest)[1..] == [e2] + rest;
    assert ([e2] + rest)[1..] == rest;
  }

  /** Two moves of different footmen commute. */
  lemma SwapMoves(m: map<int, GameUnit>, e1: (int, Action), e2: (int, Action))
    requires WellKeyed(m) && FootmanEntry(m, e1) && FootmanEntry(m, e2)
    requires e1.1.Move? && e2.1.Move? && e1.0 != e2.0
    ensures ApplyAction(ApplyAction(m, e1).value, e2) == ApplyAction(ApplyAction(m, e2).value, e1)
  {
    var a := ApplyAction(m, e1).value;
    var b := ApplyAction(m, e2).value;
    assert ApplyAction(a, e2).value == ApplyAction(b, e1).value;
  }

  /** A footman's move and another footman's attack on an archer commute:
      the mover is never the victim and the attacker's damage does not
      depend on positions. */
  lemma SwapMoveAttack(m: map<int, GameUnit>, e1: (int, Action), e2: (int, Action))
    requires WellKeyed(m) && FootmanEntry(m, e1) && FootmanEntry(m, e2)
    requires e1.1.Move? && e2.1.Attack? && e1.0 != e2.0
    ensures ApplyAction(ApplyAction(m, e1).value, e2) == ApplyAction(ApplyAction(m, e2).value, e1)
  {
    var t := e2.1.target;
    var a := ApplyAction(m, e1).value;
    var b := ApplyAction(m, e2).value;
    assert t != e1.0;
    if t in m {
      assert ApplyAction(a, e2).value == ApplyAction(b, e1).value;
    }
  }

  /** Two attacks by different footmen with non-negative damage commute.
      On the same archer the outcome is hp - d1 - d2 either way, the archer
      dying iff that reaches 0. */
  lemma SwapAttacks(m: map<int, GameUnit>, e1: (int, Action), e2: (int, Action))
    requires WellKeyed(m) && FootmanEntry(m, e1) && FootmanEntry(m, e2)
    requires e1.1.Attack? && e2.1.Attack? && e1.0 != e2.0
    requires m[e1.0].attackDamage >= 0 && m[e2.0].attackDamage >= 0
    ensures ApplyAction(ApplyAction(m, e1).value, e2) == ApplyAction(ApplyAction(m, e2).value, e1)
    ensures var t := e1.1.target;
      t == e2.1.target && t in m ==>
        var h := m[t].hp - m[e1.0].attackDamage - m[e2.0].attackDamage;
        var r := ApplyAction(ApplyAction(m, e1).value, e2).value;
        && (t in r <==> h > 0)
        && (t in r ==> r[t].hp == h)
  {
    var t1 := e1.1.target;
    var t2 := e2.1.target;
    var a := ApplyAction(m, e1).value;
    var b := ApplyAction(m, e2).value;
    if t1 == t2 && t1 in m {
      var h := m[t1].hp;
      var d1 := m[e1.0].attackDamage;
      var d2 := m[e2.0].attackDamage;
      if h - d1 - d2 > 0 {
        assert a == m[t1 := m[t1].(hp := h - d1)];
        assert b == m[t1 := m[t1].(hp := h - d2)];
        assert ApplyAction(a, e2).value == m[t1 := m[t1].(hp := h - d1 - d2)];
        assert ApplyAction(b, e1).value == m[t1 := m[t1].(hp := h - d1 - d2)];
      } else {
        assert ApplyAction(a, e2).value == m - {t1};
        assert ApplyAction(b, e1).value == m - {t1};
      }
    } else if t1 != t2 && t1 in m && t2 in m {
      assert ApplyAction(a, e2).value == ApplyAction(b, e1).value;
    }
  }

  /** Swapping two adjacent entries of different footmen changes nothing. */
  lemma SwapAdjacent(m: map<int, GameUnit>, e1: (int, Action), e2: (int, Action), rest: JointAction)
    requires WellKeyed(m) && DamageNonNegative(m)
    requires FootmanEntry(m, e1) && FootmanEntry(m, e2) && e1.0 != e2.0
    ensures ApplyActions(m, [e1, e2] + rest) == ApplyActions(m, [e2, e1] + rest)
  {
    ApplyPair(m, e1, e2, rest);
    ApplyPair(m, e2, e1, rest);
    EntryStep(m, e1);
    EntryStep(m, e2);
    EntryKept(m, ApplyAction(m, e1).value, e2);
    EntryKept(m, ApplyAction(m, e2).value, e1);
    EntryStep(ApplyAction(m, e1).value, e2);
    EntryStep(ApplyAction(m, e2).value, e1);
    if e1.1.Move? && e2.1.Move? {
      SwapMoves(m, e1, e2);
    } else if e1.1.Move? {
      SwapMoveAttack(m, e1, e2);
    } else if e2.1.Move? {
      SwapMoveAttack(m, e2, e1);
    } else {
      SwapAttacks(m, e1, e2);
    }
  }

  /** Applying `[e] + rest` is applying `e`, then `rest`. */
  lemma ApplyCons(m: map<int, GameUnit>, e: (int, Action), rest: JointAction)
    ensures ApplyActions(m, [e] + rest) ==
      match ApplyAction(m, e)
      case None => None
      case Some(n) => ApplyActions(n, rest)
  {
    assert ([e] + rest)[0] == e;
    assert ([e] + rest)[1..] == rest;
  }

  /** After a footman's entry, the entries still to come remain issuable. */
  lemma StepKeepsEntries(m: map<int, GameUnit>, y: (int, Action), rest: JointAction)
    requires WellKeyed(m) && FootmanEntry(m, y)
    requires forall e :: e in rest ==> FootmanEntry(m, e)
    ensures ApplyAction(m, y).Some? && WellKeyed(ApplyAction(m, y).value)
    ensures SameFootmen(m, ApplyAction(m, y).value)
    ensures forall e :: e in rest ==> FootmanEntry(ApplyAction(m, y).value, e)
  {
    EntryStep(m, y);
    var n := ApplyAction(m, y).value;
    forall e | e in rest
      ensures FootmanEntry(n, e)
    {
      EntryKept(m, n, e);
    }
  }

  /** An entry can be brought to the front past entries of other footmen. */
  lemma {:induction false} MoveToFront(m: map<int, GameUnit>, a: JointAction, x: (int, Action), b: JointAction)
    requires WellKeyed(m) && DamageNonNegative(m)
    requires forall e :: e in a + [x] + b ==> FootmanEntry(m, e)
    requires forall e :: e in a ==> e.0 != x.0
    ensures ApplyActions(m, a + [x] + b) == ApplyActions(m, [x] + a + b)
    decreases |a|
  {
    if a != [] {
      var y := a[0];
      var a' := a[1..];
      assert a == [y] + a';
      assert y in a + [x] + b;
      assert x in a + [x] + b;
      assert forall e :: e in a' + [x] + b ==> e in a + [x] + b;
      StepKeepsEntries(m, y, a' + [x] + b);
      var n := ApplyAction(m, y).value;
      DamageKept(m, n);
      MoveToFront(n, a', x, b);
      FrontPastOne(m, y, x, a', b);
      assert [y] + a' + [x] + b == a + [x] + b;
      assert [x] + ([y] + a') + b == [x] + a + b;
    }
  }

  /** The inductive step of `MoveToFront`: once `x` can be brought to the
      front of `t` after `y`, it can be brought past `y` as well. */
  lemma FrontPastOne(m: map<int, GameUnit>, y: (int, Action), x: (int, Action), t: JointAction, u: JointAction)
    requires WellKeyed(m) && DamageNonNegative(m)
    requires FootmanEntry(m, y) && FootmanEntry(m, x) && y.0 != x.0
    requires ApplyAction(m, y).Some?
    requires ApplyActions(ApplyAction(m, y).value, t + [x] + u) == ApplyActions(ApplyAction(m, y).value, [x] + t + u)
    ensures ApplyActions(m, [y] + t + [x] + u) == ApplyActions(m, [x] + ([y] + t) + u)
  {
    var n := ApplyAction(m, y).value;
    calc {
      ApplyActions(m, [y] + t + [x] + u);
      { assert [y] + t + [x] + u == [y] + (t + [x] + u); }
      ApplyActions(m, [y] + (t + [x] + u));
      { ApplyCons(m, y, t + [x] + u); }
      ApplyActions(n, t + [x] + u);
      ApplyActions(n, [x] + t + u);
      { ApplyCons(m, y, [x] + t + u); }
      ApplyActions(m, [y] + ([x] + t + u));
      { assert [y] + ([x] + t + u) == [y, x] + (t + u); }
      ApplyActions(m, [y, x] + (t + u));
      { SwapAdjacent(m, y, x, t + u); }
      ApplyActions(m, [x, y] + (t + u));
      { assert [x, y] + (t + u) == [x] + ([y] + t) + u; }
      ApplyActions(m, [x] + ([y] + t) + u);
    }
  }

  /** Distinct keys survive the removal of one entry. */
  lemma DropKeepsDistinct(c: JointAction, j: int)
    requires 0 <= j < |c|
    requires forall i, k :: 0 <= i < k < |c| ==> c[i].0 != c[k].0
    ensures var d := c[..j] + c[j + 1..];
      forall i, k :: 0 <= i < k < |d| ==> d[i].0 != d[k].0
  {
    var d := c[..j] + c[j + 1..];
    forall i, k | 0 <= i < k < |d|
      ensures d[i].0 != d[k].0
    {
      var i' := if i < j then i else i + 1;
      var k' := if k < j then k else k + 1;
      assert d[i] == c[i'] && d[k] == c[k'];
    }
  }

  /** Two orderings of the same entries, each issuable by distinct footmen,
      produce the same units. */
  lemma {:induction false} ApplyOrderIrrelevantFrom(m: map<int, GameUnit>, c1: JointAction, c2: JointAction)
    requires WellKeyed(m) && DamageNonNegative(m)
    requires forall e :: e in c1 ==> FootmanEntry(m, e)
    requires forall i, k :: 0 <= i < k < |c2| ==> c2[i].0 != c2[k].0
    requires multiset(c1) == multiset(c2)
    ensures ApplyActions(m, c1) == ApplyActions(m, c2)
    decreases |c1|
  {
    if c1 != [] {
      var x := c1[0];
      var j := FindEntry(c1, c2);
      var a := c2[..j];
      var b := c2[j + 1..];
      Bring(m, c1, c2, j);
      EntryStep(m, x);
      var n := ApplyAction(m, x).value;
      DamageKept(m, n);
      RestEntries(m, n, c1, c2, j);
      DropKeepsDistinct(c2, j);
      ApplyOrderIrrelevantFrom(n, c1[1..], a + b);
      calc {
        ApplyActions(m, c1);
        { assert c1 == [x] + c1[1..]; ApplyCons(m, x, c1[1..]); }
        ApplyActions(n, c1[1..]);
        ApplyActions(n, a + b);
        { ApplyCons(m, x, a + b); assert [x] + (a + b) == [x] + a + b; }
        ApplyActions(m, [x] + a + b);
        ApplyActions(m, c2);
      }
    }
  }

  /** Where the first entry of `c1` sits in its reordering `c2`. */
  ghost function FindEntry(c1: JointAction, c2: JointAction): (j: int)
    requires c1 != [] && multiset(c1) == multiset(c2)
    ensures 0 <= j < |c2| && c2[j] == c1[0]
  {
    assert c1[0] in multiset(c2);
    var j :| 0 <= j < |c2| && c2[j] == c1[0];
    j
  }

  /** The step of `ApplyOrderIrrelevantFrom` that brings `c1[0]` to the
      front of `c2`. */
  lemma Bring(m: map<int, GameUnit>, c1: JointAction, c2: JointAction, j: int)
    requires WellKeyed(m) && DamageNonNegative(m)
    requires forall e :: e in c1 ==> FootmanEntry(m, e)
    requires forall i, k :: 0 <= i < k < |c2| ==> c2[i].0 != c2[k].0
    requires multiset(c1) == multiset(c2)
    requires 0 <= j < |c2| && c1 != [] && c2[j] == c1[0]
    ensures ApplyActions(m, c2) == ApplyActions(m, [c1[0]] + c2[..j] + c2[j + 1..])
  {
    var x := c1[0];
    var a := c2[..j];
    var b := c2[j + 1..];
    assert c2 == a + [x] + b;
    forall e | e in a + [x] + b
      ensures FootmanEntry(m, e)
    {
      assert e in multiset(c1);
    }
    forall e | e in a
      ensures e.0 != x.0
    {
      var i :| 0 <= i < |a| && a[i] == e;
      assert c2[i] == e;
    }
    MoveToFront(m, a, x, b);
  }

  /** The remaining entries match up after the first, and stay issuable. */
  lemma RestEntries(m: map<int, GameUnit>, n: map<int, GameUnit>, c1: JointAction, c2: JointAction, j: int)
    requires SameFootmen(m, n)
    requires forall e :: e in c1 ==> FootmanEntry(m, e)
    requires multiset(c1) == multiset(c2)
    requires 0 <= j < |c2| && c1 != [] && c2[j] == c1[0]
    ensures multiset(c1[1..]) == multiset(c2[..j] + c2[j + 1..])
    ensures forall e :: e in c1[1..] ==> FootmanEntry(n, e)
  {
    var x := c1[0];
    assert c1 == [x] + c1[1..];
    assert c2 == c2[..j] + [x] + c2[j + 1..];
    assert multiset(c1) == multiset{x} + multiset(c1[1..]);
    assert multiset(c2) == multiset(c2[..j]) + multiset{x} + multiset(c2[j + 1..]);
    assert multiset(c2[..j] + c2[j + 1..]) == multiset(c2[..j]) + multiset(c2[j + 1..]);
    assert multiset(c1[1..]) == multiset(c1) - multiset{x};
    assert multiset(c2[..j]) + multiset(c2[j + 1..]) == multiset(c2) - multiset{x};
    forall e | e in c1[1..]
      ensures FootmanEntry(n, e)
    {
      EntryKept(m, n, e);
    }
  }

  /** The iteration order of `applyActions` is immaterial: any two orderings
      of the same footmen's joint action give the same child, provided no
      footman has negative attack damage. */
  lemma ApplyOrderIrrelevant(s: GameState, c1: JointAction, c2: JointAction)
    requires WellKeyed(s.units)
    requires forall k :: k in FootmanIds(s) ==> s.units[k].attackDamage >= 0
    requires FootmenTurn(s, c1) && FootmenTurn(s, c2)
    requires multiset(c1) == multiset(c2)
    ensures ChildState(s, c1) == ChildState(s, c2)
  {
    forall e | e in c1
      ensures FootmanEntry(s.units, e)
    {
      var i :| 0 <= i < |c1| && c1[i] == e;
    }
    assert DamageNonNegative(s.units) by {
      forall k | k in s.units && IsFootman(s.units[k])
        ensures s.units[k].attackDamage >= 0
      {
        assert k in FootmanIds(s);
      }
    }
    ApplyOrderIrrelevantFrom(s.units, c1, c2);
  }

  /** A child of `getChildren` is a footmen's turn. */
  lemma ProperChildIsFootmenTurn(s: GameState, n: GameStateChild<GameState>)
    requires WellKeyed(s.units) && ProperChild(s, n)
    ensures FootmenTurn(s, n.action)
  {
    var c := n.action;
    forall i | 0 <= i < |c|
      ensures c[i].0 in s.units && IsFootman(s.units[c[i].0])
      ensures c[i].1.Attack? ==> c[i].1.attacker == c[i].0 && c[i].1.target in ArcherIds(s)
    {
      assert Keys(c)[i] == c[i].0;
      assert Movers(s)[i] in FootmanIds(s);
      if c[i].1.Attack? {
        assert c[i].1.target in Enemies(s);
      }
    }
    forall i, j | 0 <= i < j < |c|
      ensures c[i].0 != c[j].0
    {
      assert Keys(c)[i] == c[i].0 && Keys(c)[j] == c[j].0;
    }
  }

  /** Whatever order the HashMap of `applyActions` visits a child's entries
      in, the child's state is the same. */
  lemma ChildOrderIrrelevant(s: GameState, n: GameStateChild<GameState>, c: JointAction)
    requires WellKeyed(s.units) && FootmanIds(s) != {}
    requires forall k :: k in FootmanIds(s) ==> s.units[k].attackDamage >= 0
    requires n in GetChildren(s)
    requires FootmenTurn(s, c) && multiset(c) == multiset(n.action)
    ensures ChildState(s, c) == Some(n.state)
  {
    ProperChildIsFootmenTurn(s, n);
    ApplyOrderIrrelevant(s, c, n.action);
  }

  /** Without the damage assumption the order can matter: a 6-damage and a
      -3-damage footman attack a 5-hp archer.  Hit by the first one first,
      the archer dies and the second attack is a no-op; hit in the other
      order, it survives with 2 hp. */
  lemma NegativeDamageOrderMatters()
    ensures var m := map[1 := GameUnit(FootmanName, 1, 10, 6, Pos(0, 0)),
                         2 := GameUnit(FootmanName, 2, 10, -3, Pos(2, 0)),
                         3 := GameUnit("Archer", 3, 5, 1, Pos(1, 0))];
      var e1 := (1, Attack(1, 3));
      var e2 := (2, Attack(2, 3));
      && ApplyActions(m, [e1, e2]).Some? && 3 !in ApplyActions(m, [e1, e2]).value
      && ApplyActions(m, [e2, e1]).Some? && 3 in ApplyActions(m, [e2, e1]).value
  {
    var m := map[1 := GameUnit(FootmanName, 1, 10, 6, Pos(0, 0)),
                 2 := GameUnit(FootmanName, 2, 10, -3, Pos(2, 0)),
                 3 := GameUnit("Archer", 3, 5, 1, Pos(1, 0))];
    var e1 := (1, Attack(1, 3));
    var e2 := (2, Attack(2, 3));
    ApplyPair(m, e1, e2, []);
    ApplyPair(m, e2, e1, []);
    assert [e1, e2] + [] == [e1, e2] && [e2, e1] + [] == [e2, e1];
  }
}

=== FILE: actions.dfy ===
/** Local stand-ins for SEPIA's `Action` classes and for `GameStateChild`. */
module Actions {
  import opened Grid

  /** `DirectedAction` (a primitive move) or `TargetedAction` (a primitive
      attack of `attacker` on `target`). */
  datatype Action = Move(dir: Direction) | Attack(attacker: int, target: int)

  /** One ply's `Map<Integer, Action>`, as (unit id, action) entries in the
      fixed order in which they are applied. */
  type JointAction = seq<(int, Action)>

  /** `GameStateChild`: a joint action and the state it produces. */
  datatype GameStateChild<S> = GameStateChild(action: JointAction, state: S)

  /** The unit ids of a joint action, entry by entry. */
  function Keys(ja: JointAction): (ks: seq<int>)
    ensures |ks| == |ja| && forall i :: 0 <= i < |ja| ==> ks[i] == ja[i].0
  {
    seq(|ja|, i requires 0 <= i < |ja| => ja[i].0)
  }
}

=== FILE: agent.dfy ===
/** The search instantiated with the footmen-versus-archers game. */
module GameAgent {
  import opened GameStates
  import opened Actions
  import opened Children
  import opened Utility
  import opened Search

  /** The game's move generator as the search sees it.  `getChildren`
      ignores the side to move: the footmen always act.  A state without
      footmen (where the source throws) or with mis-keyed units has no
      children here. */
  function GameChildren(s: GameState, maximizing: bool): seq<GameStateChild<GameState>> {
    if WellKeyed(s.units) && FootmanIds(s) != {} then GetChildren(s) else []
  }

  /** The agent with `numPlys` plies, `getChildren` and `getUtility`. */
  function Sepia(numPlys: int): (a: Agent<GameState>)
    ensures a.numPlys == numPlys
    ensures forall s: GameState, b: bool :: a.children(s, b) == GameChildren(s, b)
    ensures forall s: GameState :: a.utility(s) == GetUtility(s)
  {
    Agent(numPlys, GameChildren, GetUtility)
  }

  /** The move the agent picks from a state satisfying the scenario
      invariant (units alive, in bounds, off obstacles, on distinct cells)
      is one of the state's children, and satisfies that invariant too. */
  lemma ChosenMoveKeepsInvariant(numPlys: int, root: GameStateChild<GameState>, depth: nat, alpha: ExtInt, beta: ExtInt)
    requires depth >= 1
    requires Inv(root.state)
    requires AlphaBetaSearch(Sepia(numPlys), root, depth, alpha, beta).Found?
    ensures var n := AlphaBetaSearch(Sepia(numPlys), root, depth, alpha, beta).node;
      && FootmanIds(root.state) != {}
      && n in GetChildren(root.state)
      && Inv(n.state)
  {
    var a := Sepia(numPlys);
    LevelSpec(a, root, depth, alpha, beta);
    var n := AlphaBetaSearch(a, root, depth, alpha, beta).node;
    ChildrenKeepInvariant(root.state);
  }
}

=== FILE: children.dfy ===
/** `getChildren`: every non-conflicting joint action of the footmen against
    the archers, paired with the state it produces, and the proof that such
    children keep the scenario invariant. */
module Children {
  import opened Wrappers
  import opened Grid
  import opened GameUnits
  import opened GameStates
  import opened Actions
  import opened IdOrder
  import opened Transition
  import opened Combinations

  /** The footman ids, in the fixed iteration order. */
  function Movers(s: GameState): seq<int> {
    Ascending(FootmanIds(s))
  }

  /** The archer ids, in the fixed iteration order. */
  function Enemies(s: GameState): seq<int> {
    Ascending(ArcherIds(s))
  }

  /** The map `validActions(footmanLocations.keySet(), archerLocations.keySet())`. */
  function FootmanOptions(s: GameState): seq<(int, seq<Action>)> {
    ValidActions(s, Movers(s), Enemies(s))
  }

  /** A joint action of the footmen: each entry is a distinct footman that
      either makes a legal move or attacks an archer itself. */
  predicate FootmenTurn(s: GameState, c: JointAction) {
    && (forall i :: 0 <= i < |c| ==> c[i].0 in s.units && IsFootman(s.units[c[i].0]))
    && (forall i, j :: 0 <= i < j < |c| ==> c[i].0 != c[j].0)
    && (forall i :: 0 <= i < |c| && c[i].1.Move? ==> ValidMove(s, c[i].0, c[i].1.dir))
    && (forall i :: 0 <= i < |c| && c[i].1.Attack? ==>
          c[i].1.attacker == c[i].0 && c[i].1.target in ArcherIds(s))
  }

  /** What every entry of the cross product of the footmen's action lists is. */
  lemma ChoiceIsFootmenTurn(s: GameState, c: JointAction)
    requires IsChoice(FootmanOptions(s), c)
    ensures FootmenTurn(s, c)
    ensures MoveKeysPresent(s, c)
    ensures Keys(c) == Movers(s)
    ensures forall i :: 0 <= i < |c| ==> c[i].1 in UnitActions(s, c[i].0, Enemies(s))
  {
    var va := FootmanOptions(s);
    forall i | 0 <= i < |c|
      ensures c[i].0 in FootmanIds(s)
      ensures c[i].1 in UnitActions(s, c[i].0, Enemies(s))
    {
      assert c[i].0 == Movers(s)[i];
    }
    assert Keys(c) == Movers(s);
  }

  /** The non-conflicting entries of `combos`, each with its child state. */
  function ChildrenOf(s: GameState, combos: seq<JointAction>): (r: seq<GameStateChild<GameState>>)
    requires WellKeyed(s.units)
    requires forall c :: c in combos ==> FootmenTurn(s, c) && MoveKeysPresent(s, c)
    ensures forall n :: n in r ==>
      && n.action in combos
      && !ActionsConflict(s, n.action)
      && ChildState(s, n.action) == Some(n.state)
    ensures forall c :: c in combos && !ActionsConflict(s, c) ==> exists n :: n in r && n.action == c
  {
    if combos == [] then []
    else
      var c := combos[0];
      var rest := ChildrenOf(s, combos[1..]);
      if ActionsConflict(s, c) then rest
      else
        FootmenTurnApplies(s, c);
        [GameStateChild(c, ChildState(s, c).value)] + rest
  }

  /** What `getChildren` promises of each child: a non-conflicting joint
      action with exactly one entry per footman, each taken from that
      footman's action list, paired with the state it produces. */
  ghost predicate ProperChild(s: GameState, n: GameStateChild<GameState>) {
    && MoveKeysPresent(s, n.action)
    && !ActionsConflict(s, n.action)
    && Keys(n.action) == Movers(s)
    && (forall i :: 0 <= i < |n.action| ==>
          n.action[i].0 in s.units && n.action[i].1 in UnitActions(s, n.action[i].0, Enemies(s)))
    && ChildState(s, n.action) == Some(n.state)
  }

  /** `getChildren()`.  The source always lets the footmen act against the
      archers.  With no footman, `getActionCombinations` calls `next()` on an
      empty iterator and throws; hence the precondition. */
  function GetChildren(s: GameState): (r: seq<GameStateChild<GameState>>)
    requires WellKeyed(s.units)
    requires FootmanIds(s) != {}
    ensures forall n :: n in r ==> ProperChild(s, n)
  {
    var combos := ActionCombinations(FootmanOptions(s));
    forall c: JointAction | c in combos
      ensures FootmenTurn(s, c) && MoveKeysPresent(s, c)
    {
      ChoiceIsFootmenTurn(s, c);
    }
    var r := ChildrenOf(s, combos);
    forall n | n in r
      ensures ProperChild(s, n)
    {
      ChoiceIsFootmenTurn(s, n.action);
    }
    r
  }

  /** Conversely, a joint action picked from the footmen's lists names
      present units only, and it is the action of some child exactly when it
      has no conflict. */
  lemma GetChildrenComplete(s: GameState, c: JointAction)
    requires WellKeyed(s.units)
    requires FootmanIds(s) != {}
    requires IsChoice(FootmanOptions(s), c)
    ensures MoveKeysPresent(s, c)
    ensures !ActionsConflict(s, c) <==> exists n :: n in GetChildren(s) && n.action == c
  {
    var combos := ActionCombinations(FootmanOptions(s));
    ChoiceIsFootmenTurn(s, c);
    assert c in combos;
    forall c': JointAction | c' in combos
      ensures FootmenTurn(s, c') && MoveKeysPresent(s, c')
    {
      ChoiceIsFootmenTurn(s, c');
    }
    assert GetChildren(s) == ChildrenOf(s, combos);
  }

  lemma FootmenTurnTail(s: GameState, c: JointAction)
    requires c != [] && FootmenTurn(s, c)
    ensures FootmenTurn(s, c[1..])
  {
    var t := c[1..];
    forall i, j | 0 <= i < j < |t|
      ensures t[i].0 != t[j].0
    {
      assert t[i] == c[i + 1] && t[j] == c[j + 1];
    }
  }

  /** Applying a footmen's joint action never dereferences a missing unit:
      footmen are never victims, so every mover and attacker is still there
      when its entry is applied. */
  lemma {:induction false} FootmenTurnAppliesFrom(s: GameState, c: JointAction, m: map<int, GameUnit>)
    requires WellKeyed(m)
    requires FootmenTurn(s, c)
    requires FootmanIds(s) <= m.Keys
    requires forall k :: k in m ==> k in s.units && m[k].name == s.units[k].name
    ensures ApplyActions(m, c).Some?
    decreases |c|
  {
    if c != [] {
      var next := ApplyAction(m, c[0]);
      assert next.Some?;
      assert ApplyActions(m, c) == ApplyActions(next.value, c[1..]);
      if c[0].1.Attack? {
        var t := c[0].1.target;
        assert t in ArcherIds(s);
        if t in m {
          assert t !in FootmanIds(s);
        }
      }
      FootmenTurnTail(s, c);
      FootmenTurnAppliesFrom(s, c[1..], next.value);
    }
  }

  lemma FootmenTurnApplies(s: GameState, c: JointAction)
    requires WellKeyed(s.units)
    requires FootmenTurn(s, c)
    ensures ChildState(s, c).Some?
  {
    FootmenTurnAppliesFrom(s, c, s.units);
  }

  /** With distinct keys, a unit's displacement is that of its one move. */
  lemma {:induction false} OffsetOfMover(c: JointAction, i: int)
    requires 0 <= i < |c| && c[i].1.Move?
    requires forall a, b :: 0 <= a < b < |c| ==> c[a].0 != c[b].0
    ensures OffsetX(c, c[i].0) == XComponent(c[i].1.dir)
    ensures OffsetY(c, c[i].0) == YComponent(c[i].1.dir)
  {
    if i == 0 {
      OffsetOfNonMover(c[1..], c[0].0);
    } else {
      var t := c[1..];
      assert t[i - 1] == c[i];
      forall a, b | 0 <= a < b < |t|
        ensures t[a].0 != t[b].0
      {
        assert t[a] == c[a + 1] && t[b] == c[b + 1];
      }
      OffsetOfMover(t, i - 1);
    }
  }

  /** A unit without a move entry is not displaced. */
  lemma {:induction false} OffsetOfNonMover(c: JointAction, k: int)
    requires forall i :: 0 <= i < |c| && c[i].0 == k ==> !c[i].1.Move?
    ensures OffsetX(c, k) == 0 && OffsetY(c, k) == 0
  {
    if c != [] {
      var t := c[1..];
      assert forall i :: 0 <= i < |t| ==> t[i] == c[i + 1];
      OffsetOfNonMover(t, k);
    }
  }

  /** A unit of `s` moves somewhere in the joint action `c`. */
  ghost predicate HasMove(c: JointAction, k: int) {
    exists i :: 0 <= i < |c| && c[i].0 == k && c[i].1.Move?
  }

  /** Where a surviving unit ends up: at its move's destination if it has
      one, otherwise where it stood. */
  lemma FinalLocation(s: GameState, c: JointAction, k: int, i: int)
    requires WellKeyed(s.units) && FootmenTurn(s, c) && ApplyActions(s.units, c).Some?
    requires k in ApplyActions(s.units, c).value
    requires 0 <= i < |c| && c[i].0 == k && c[i].1.Move?
    ensures k in s.units
    ensures ApplyActions(s.units, c).value[k].location == Destination(s, c[i])
  {
    ApplyActionsFrame(s.units, c);
    OffsetOfMover(c, i);
  }

  lemma StaysPut(s: GameState, c: JointAction, k: int)
    requires WellKeyed(s.units) && ApplyActions(s.units, c).Some?
    requires k in ApplyActions(s.units, c).value
    requires !HasMove(c, k)
    ensures k in s.units
    ensures ApplyActions(s.units, c).value[k].location == s.units[k].location
  {
    ApplyActionsFrame(s.units, c);
    OffsetOfNonMover(c, k);
  }

  /** Every surviving unit of a legal footmen's turn stands in bounds and off
      the obstacles. */
  lemma ChildCellsLegal(s: GameState, c: JointAction, k: int)
    requires Inv(s) && FootmenTurn(s, c) && ApplyActions(s.units, c).Some?
    requires k in ApplyActions(s.units, c).value
    ensures InBounds(s, ApplyActions(s.units, c).value[k].location)
    ensures ApplyActions(s.units, c).value[k].location !in s.resourceLocations
  {
    if HasMove(c, k) {
      var i :| 0 <= i < |c| && c[i].0 == k && c[i].1.Move?;
      FinalLocation(s, c, k, i);
      assert ValidMove(s, k, c[i].1.dir);
    } else {
      StaysPut(s, c, k);
    }
  }

  /** Two surviving units of a legal, non-conflicting footmen's turn stand
      on different cells. */
  lemma ChildCellsDistinct(s: GameState, c: JointAction, j: int, k: int)
    requires Inv(s) && FootmenTurn(s, c) && ApplyActions(s.units, c).Some?
    requires MoveKeysPresent(s, c) && !ActionsConflict(s, c)
    requires j in ApplyActions(s.units, c).value && k in ApplyActions(s.units, c).value && j != k
    ensures ApplyActions(s.units, c).value[j].location != ApplyActions(s.units, c).value[k].location
  {
    if HasMove(c, j) && HasMove(c, k) {
      BothMovedApart(s, c, j, k);
    } else if HasMove(c, j) {
      MovedApart(s, c, j, k);
    } else if HasMove(c, k) {
      MovedApart(s, c, k, j);
    } else {
      StaysPut(s, c, j);
      StaysPut(s, c, k);
    }
  }

  /** Two movers: the absence of a conflict keeps their destinations apart. */
  lemma BothMovedApart(s: GameState, c: JointAction, j: int, k: int)
    requires Inv(s) && FootmenTurn(s, c) && ApplyActions(s.units, c).Some?
    requires MoveKeysPresent(s, c) && !ActionsConflict(s, c)
    requires j in ApplyActions(s.units, c).value && k in ApplyActions(s.units, c).value && j != k
    requires HasMove(c, j) && HasMove(c, k)
    ensures ApplyActions(s.units, c).value[j].location != ApplyActions(s.units, c).value[k].location
  {
    var a :| 0 <= a < |c| && c[a].0 == j && c[a].1.Move?;
    var b :| 0 <= b < |c| && c[b].0 == k && c[b].1.Move?;
    DestinationsApart(s, c, a, b);
    FinalLocation(s, c, j, a);
    FinalLocation(s, c, k, b);
  }

  /** Two different move entries of a non-conflicting joint action resolve
      to different cells. */
  lemma DestinationsApart(s: GameState, c: JointAction, a: int, b: int)
    requires MoveKeysPresent(s, c) && !ActionsConflict(s, c)
    requires 0 <= a < |c| && 0 <= b < |c| && a != b
    requires c[a].1.Move? && c[b].1.Move?
    ensures Destination(s, c[a]) != Destination(s, c[b])
  {
    ActionsConflictIff(s, c);
    if a < b {
      assert Destination(s, c[a]) != Destination(s, c[b]);
    } else {
      assert Destination(s, c[b]) != Destination(s, c[a]);
    }
  }

  /** A mover and a unit that stays: a valid move never enters an occupied
      cell. */
  lemma MovedApart(s: GameState, c: JointAction, j: int, k: int)
    requires Inv(s) && FootmenTurn(s, c) && ApplyActions(s.units, c).Some?
    requires j in ApplyActions(s.units, c).value && k in ApplyActions(s.units, c).value && j != k
    requires HasMove(c, j) && !HasMove(c, k)
    ensures ApplyActions(s.units, c).value[j].location != ApplyActions(s.units, c).value[k].location
  {
    var a :| 0 <= a < |c| && c[a].0 == j && c[a].1.Move?;
    FinalLocation(s, c, j, a);
    StaysPut(s, c, k);
    assert ValidMove(s, j, c[a].1.dir);
  }

  /** Every child of a state satisfying the scenario invariant satisfies it
      too: units stay alive, in bounds, off obstacles and on distinct cells. */
  lemma ChildrenKeepInvariant(s: GameState)
    requires Inv(s)
    requires FootmanIds(s) != {}
    ensures forall n :: n in GetChildren(s) ==> Inv(n.state)
  {
    forall n | n in GetChildren(s)
      ensures Inv(n.state)
    {
      ChildKeepsInvariant(s, n);
    }
  }

  lemma ChildKeepsInvariant(s: GameState, n: GameStateChild<GameState>)
    requires Inv(s)
    requires FootmanIds(s) != {}
    requires n in GetChildren(s)
    ensures Inv(n.state)
  {
    var c := n.action;
    assert ProperChild(s, n);
    assert IsChoice(FootmanOptions(s), c);
    ChoiceIsFootmenTurn(s, c);
    ApplyActionsFrame(s.units, c);
    var r := n.state.units;
    assert r == ApplyActions(s.units, c).value;
    forall k | k in r
      ensures InBounds(n.state, r[k].location) && r[k].location !in n.state.resourceLocations
    {
      ChildCellsLegal(s, c, k);
    }
    forall j, k | j in r && k in r && j != k
      ensures r[j].location != r[k].location
    {
      ChildCellsDistinct(s, c, j, k);
    }
  }
}

=== FILE: combinations.dfy ===
/** Move generation: `validActions`, `getActionCombinations` and
    `actionsConflict`. */
module Combinations {
  import opened Grid
  import opened GameStates
  import opened Actions

  /** Each direction of `ds` that is a legal move for `id`, in the order of `ds`. */
  function MovesFor(s: GameState, id: int, ds: seq<Direction>): (r: seq<Action>)
    requires id in s.units
    requires forall i, j :: 0 <= i < j < |ds| ==> Rank(ds[i]) < Rank(ds[j])
    ensures forall a :: a in r <==> a.Move? && a.dir in ds && ValidMove(s, id, a.dir)
    ensures forall i, j :: 0 <= i < j < |r| ==> r[i].Move? && r[j].Move? && Rank(r[i].dir) < Rank(r[j].dir)
  {
    if ds == [] then []
    else
      var rest := MovesFor(s, id, ds[1..]);
      assert forall a :: a in rest ==> a.dir in ds[1..];
      if ValidMove(s, id, ds[0]) then [Move(ds[0])] + rest else rest
  }

  /** An attack on each enemy of `es` within reach of `id`, in the order of `es`. */
  function AttacksFor(s: GameState, id: int, es: seq<int>): (r: seq<Action>)
    requires id in s.units
    requires forall e :: e in es ==> e in s.units
    ensures forall a :: a in r <==> a.Attack? && a.attacker == id && a.target in es && ValidAttack(s, id, a.target)
    ensures (forall i, j :: 0 <= i < j < |es| ==> es[i] < es[j]) ==>
      forall i, j :: 0 <= i < j < |r| ==> r[i].target < r[j].target
  {
    if es == [] then []
    else
      var rest := AttacksFor(s, id, es[1..]);
      assert forall a :: a in rest ==> a.target in es[1..];
      if ValidAttack(s, id, es[0]) then [Attack(id, es[0])] + rest else rest
  }

  /** The action list `validActions` builds for one unit: its legal moves in
      NORTH, EAST, SOUTH, WEST order, then an attack on every enemy within
      reach.  Every listed action is legal and every legal action is listed. */
  function UnitActions(s: GameState, id: int, enemies: seq<int>): (r: seq<Action>)
    requires id in s.units
    requires forall e :: e in enemies ==> e in s.units
    ensures forall a :: a in r && a.Move? ==> ValidMove(s, id, a.dir)
    ensures forall a :: a in r && a.Attack? ==> a.attacker == id && a.target in enemies && ValidAttack(s, id, a.target)
    ensures forall d :: ValidMove(s, id, d) ==> Move(d) in r
    ensures forall e :: e in enemies && ValidAttack(s, id, e) ==> Attack(id, e) in r
    ensures forall i, j :: 0 <= i < j < |r| && r[j].Move? ==> r[i].Move? && Rank(r[i].dir) < Rank(r[j].dir)
  {
    var moves := MovesFor(s, id, ValidDirections);
    var attacks := AttacksFor(s, id, enemies);
    forall d | ValidMove(s, id, d)
      ensures Move(d) in moves
    {
      assert ValidDirections[Rank(d)] == d;
    }
    moves + attacks
  }

  /** `validActions`: each mover, in the given order, with its action list.
      A list holds exactly the mover's legal moves and its own attacks on the
      enemies in reach, with the moves first, in NORTH, EAST, SOUTH, WEST
      order. */
  function ValidActions(s: GameState, movers: seq<int>, enemies: seq<int>): (r: seq<(int, seq<Action>)>)
    requires forall m :: m in movers ==> m in s.units
    requires forall e :: e in enemies ==> e in s.units
    ensures |r| == |movers|
    ensures forall i :: 0 <= i < |r| ==> r[i].0 == movers[i]
    ensures forall i, act :: 0 <= i < |r| ==>
      (act in r[i].1 <==>
        || (act.Move? && ValidMove(s, movers[i], act.dir))
        || (act.Attack? && act.attacker == movers[i] && act.target in enemies && ValidAttack(s, movers[i], act.target)))
    ensures forall i, j, k :: 0 <= i < |r| && 0 <= j < k < |r[i].1| && r[i].1[k].Move? ==>
      r[i].1[j].Move? && Rank(r[i].1[j].dir) < Rank(r[i].1[k].dir)
    ensures forall i :: 0 <= i < |r| ==> r[i].1 == UnitActions(s, movers[i], enemies)
  {
    seq(|movers|, i requires 0 <= i < |movers| => (movers[i], UnitActions(s, movers[i], enemies)))
  }

  /** Number of joint actions the lists admit: the product of their lengths. */
  function Product(va: seq<(int, seq<Action>)>): nat {
    if va == [] then 1 else |va[0].1| * Product(va[1..])
  }

  /** `c` picks, entry by entry, one action from each unit's list. */
  predicate IsChoice(va: seq<(int, seq<Action>)>, c: JointAction) {
    && |c| == |va|
    && forall i :: 0 <= i < |c| ==> c[i].0 == va[i].0 && c[i].1 in va[i].1
  }

  lemma IsChoiceCons(va: seq<(int, seq<Action>)>, c: JointAction)
    requires |va| >= 1
    ensures IsChoice(va, c) <==>
      |c| >= 1 && c[0].0 == va[0].0 && c[0].1 in va[0].1 && IsChoice(va[1..], c[1..])
  {
    if |c| >= 1 && c[0].0 == va[0].0 && c[0].1 in va[0].1 && IsChoice(va[1..], c[1..]) {
      forall i | 0 <= i < |c|
        ensures c[i].0 == va[i].0 && c[i].1 in va[i].1
      {
        if i > 0 {
          assert c[1..][i - 1] == c[i];
          assert va[1..][i - 1] == va[i];
        }
      }
    }
  }

  /** Every joint action of `rest`, each preceded by the entry `(id, a)`. */
  function Prefixed(id: int, a: Action, rest: seq<JointAction>): (r: seq<JointAction>)
    ensures |r| == |rest|
    ensures forall c :: c in r <==> |c| >= 1 && c[0] == (id, a) && c[1..] in rest
  {
    var r := seq(|rest|, j requires 0 <= j < |rest| => [(id, a)] + rest[j]);
    forall c | |c| >= 1 && c[0] == (id, a) && c[1..] in rest
      ensures c in r
    {
      var j :| 0 <= j < |rest| && rest[j] == c[1..];
      assert r[j] == c;
    }
    forall c | c in r
      ensures |c| >= 1 && c[0] == (id, a) && c[1..] in rest
    {
      var j :| 0 <= j < |r| && r[j] == c;
      assert c[1..] == rest[j];
    }
    r
  }

  /** The two nested loops of `getActionCombinations`: for each action of the
      current unit, for each combination of the remaining units. */
  function Extend(id: int, acts: seq<Action>, rest: seq<JointAction>): (r: seq<JointAction>)
    ensures |r| == |acts| * |rest|
    ensures forall c: JointAction :: c in r <==> |c| >= 1 && c[0].0 == id && c[0].1 in acts && c[1..] in rest
  {
    if acts == [] then []
    else
      var here := Prefixed(id, acts[0], rest);
      var later := Extend(id, acts[1..], rest);
      assert |acts| * |rest| == |rest| + (|acts| - 1) * |rest|;
      assert forall a :: a in acts <==> a == acts[0] || a in acts[1..];
      here + later
  }

  /** `getActionCombinations`: the Cartesian product of the per-unit lists.
      The first unit is taken out and the rest is combined recursively, so a
      unit with an empty list empties the whole product.  With no unit at all
      the source's `iterator().next()` throws; hence the precondition. */
  function ActionCombinations(va: seq<(int, seq<Action>)>): (r: seq<JointAction>)
    requires |va| >= 1
    ensures |r| == Product(va)
    ensures forall c :: c in r <==> IsChoice(va, c)
  {
    var id := va[0].0;
    var acts := va[0].1;
    if |va| == 1 then
      var r := seq(|acts|, i requires 0 <= i < |acts| => [(id, acts[i])]);
      forall c: JointAction
        ensures c in r <==> IsChoice(va, c)
      {
        if IsChoice(va, c) {
          var i :| 0 <= i < |acts| && acts[i] == c[0].1;
          assert r[i] == c;
        }
      }
      r
    else
      var rest := ActionCombinations(va[1..]);
      forall c: JointAction
        ensures IsChoice(va, c) <==> |c| >= 1 && c[0].0 == id && c[0].1 in acts && c[1..] in rest
      {
        IsChoiceCons(va, c);
      }
      Extend(id, acts, rest)
  }

  /** The number of joint actions is zero exactly when some unit has no
      legal action at all. */
  lemma {:induction false} ProductZeroIffEmptyList(va: seq<(int, seq<Action>)>)
    ensures Product(va) == 0 <==> exists i :: 0 <= i < |va| && va[i].1 == []
  {
    if va != [] {
      ProductZeroIffEmptyList(va[1..]);
      if exists i :: 0 <= i < |va[1..]| && va[1..][i].1 == [] {
        var i :| 0 <= i < |va[1..]| && va[1..][i].1 == [];
        assert va[i + 1].1 == [];
      }
      if exists i :: 0 <= i < |va| && va[i].1 == [] {
        var i :| 0 <= i < |va| && va[i].1 == [];
        if i > 0 {
          assert va[1..][i - 1].1 == [];
        }
      }
    }
  }

  /** Every move entry names a unit of `s` (so its destination is defined). */
  predicate MoveKeysPresent(s: GameState, ja: JointAction) {
    forall i :: 0 <= i < |ja| && ja[i].1.Move? ==> ja[i].0 in s.units
  }

  /** The cell a move entry leads to. */
  function Destination(s: GameState, e: (int, Action)): Pos
    requires e.1.Move? && e.0 in s.units
  {
    ResultingLocation(s, e.0, e.1.dir)
  }

  /** The loop of `actionsConflict` with its set of destinations seen so far. */
  function ConflictFrom(s: GameState, ja: JointAction, seen: set<Pos>): bool
    requires MoveKeysPresent(s, ja)
    decreases |ja|
  {
    if ja == [] then false
    else if ja[0].1.Move? then
      var p := ResultingLocation(s, ja[0].0, ja[0].1.dir);
      if p in seen then true else ConflictFrom(s, ja[1..], seen + {p})
    else
      ConflictFrom(s, ja[1..], seen)
  }

  /** `actionsConflict`: whether two moves resolve to the same cell. */
  function ActionsConflict(s: GameState, ja: JointAction): bool
    requires MoveKeysPresent(s, ja)
  {
    ConflictFrom(s, ja, {})
  }

  /** Two distinct move entries resolve to the same destination. */
  ghost predicate MovesMeet(s: GameState, ja: JointAction)
    requires MoveKeysPresent(s, ja)
  {
    exists i, j :: 0 <= i < j < |ja| && ja[i].1.Move? && ja[j].1.Move?
      && Destination(s, ja[i]) == Destination(s, ja[j])
  }

  /** Some move entry resolves to a cell of `seen`. */
  ghost predicate HitsSeen(s: GameState, ja: JointAction, seen: set<Pos>)
    requires MoveKeysPresent(s, ja)
  {
    exists j :: 0 <= j < |ja| && ja[j].1.Move? && Destination(s, ja[j]) in seen
  }

  lemma MoveKeysPresentTail(s: GameState, ja: JointAction)
    requires ja != [] && MoveKeysPresent(s, ja)
    ensures MoveKeysPresent(s, ja[1..])
  {
    forall i | 0 <= i < |ja[1..]| && ja[1..][i].1.Move?
      ensures ja[1..][i].0 in s.units
    {
      assert ja[1..][i] == ja[i + 1];
    }
  }

  lemma HitsSeenCons(s: GameState, ja: JointAction, seen: set<Pos>)
    requires ja != [] && MoveKeysPresent(s, ja)
    ensures MoveKeysPresent(s, ja[1..])
    ensures HitsSeen(s, ja, seen) <==>
      (ja[0].1.Move? && Destination(s, ja[0]) in seen) || HitsSeen(s, ja[1..], seen)
  {
    MoveKeysPresentTail(s, ja);
    var rest := ja[1..];
    if HitsSeen(s, rest, seen) {
      var j :| 0 <= j < |rest| && rest[j].1.Move? && Destination(s, rest[j]) in seen;
      assert ja[j + 1] == rest[j];
    }
    if HitsSeen(s, ja, seen) && !(ja[0].1.Move? && Destination(s, ja[0]) in seen) {
      var j :| 0 <= j < |ja| && ja[j].1.Move? && Destination(s, ja[j]) in seen;
      assert rest[j - 1] == ja[j];
    }
  }

  lemma HitsSeenUnion(s: GameState, ja: JointAction, seen: set<Pos>, p: Pos)
    requires MoveKeysPresent(s, ja)
    ensures HitsSeen(s, ja, seen + {p}) <==> HitsSeen(s, ja, seen) || HitsSeen(s, ja, {p})
  {
  }

  lemma MovesMeetCons(s: GameState, ja: JointAction)
    requires ja != [] && MoveKeysPresent(s, ja)
    ensures MoveKeysPresent(s, ja[1..])
    ensures MovesMeet(s, ja) <==>
      MovesMeet(s, ja[1..]) || (ja[0].1.Move? && HitsSeen(s, ja[1..], {Destination(s, ja[0])}))
  {
    MoveKeysPresentTail(s, ja);
    var rest := ja[1..];
    if MovesMeet(s, rest) {
      var i, j :| 0 <= i < j < |rest| && rest[i].1.Move? && rest[j].1.Move?
        && Destination(s, rest[i]) == Destination(s, rest[j]);
      assert ja[i + 1] == rest[i] && ja[j + 1] == rest[j];
    }
    if ja[0].1.Move? && HitsSeen(s, rest, {Destination(s, ja[0])}) {
      var j :| 0 <= j < |rest| && rest[j].1.Move? && Destination(s, rest[j]) in {Destination(s, ja[0])};
      assert ja[j + 1] == rest[j];
    }
    if MovesMeet(s, ja) {
      var i, j :| 0 <= i < j < |ja| && ja[i].1.Move? && ja[j].1.Move?
        && Destination(s, ja[i]) == Destination(s, ja[j]);
      assert rest[j - 1] == ja[j];
      if i > 0 {
        assert rest[i - 1] == ja[i];
      }
    }
  }

  lemma {:induction false} ConflictFromIff(s: GameState, ja: JointAction, seen: set<Pos>)
    requires MoveKeysPresent(s, ja)
    ensures ConflictFrom(s, ja, seen) <==> HitsSeen(s, ja, seen) || MovesMeet(s, ja)
    decreases |ja|
  {
    if ja != [] {
      HitsSeenCons(s, ja, seen);
      MovesMeetCons(s, ja);
      if ja[0].1.Move? {
        var p := Destination(s, ja[0]);
        if p !in seen {
          ConflictFromIff(s, ja[1..], seen + {p});
          HitsSeenUnion(s, ja[1..], seen, p);
        }
      } else {
        ConflictFromIff(s, ja[1..], seen);
      }
    }
  }

  /** `actionsConflict` holds iff two move entries resolve to the same cell;
      attack entries never cause a conflict. */
  lemma ActionsConflictIff(s: GameState, ja: JointAction)
    requires MoveKeysPresent(s, ja)
    ensures ActionsConflict(s, ja) <==>
      exists i, j :: 0 <= i < j < |ja| && ja[i].1.Move? && ja[j].1.Move?
        && Destination(s, ja[i]) == Destination(s, ja[j])
  {
    ConflictFromIff(s, ja, {});
  }
}

=== FILE: game_state.dfy ===
/** The agent's `GameState` snapshot and its legality queries. */
module GameStates {
  import opened Grid
  import opened GameUnits

  /** A snapshot: the live units by id, the obstacle (resource) cells, the
      inclusive map extents and the ply counter.  `footmen`, `archers`,
      `footmanLocations` and `archerLocations` of the source are views of
      `units` and are derived below. */
  datatype GameState = GameState(
    units: map<int, GameUnit>,
    resourceLocations: set<Pos>,
    xExtent: int,
    yExtent: int,
    depth: int)

  const FootmanName: string := "Footman"

  /** A unit is a footman iff its template name is "Footman"; every other
      unit of a state is an archer. */
  predicate IsFootman(u: GameUnit) {
    u.name == FootmanName
  }

  function FootmanIds(s: GameState): set<int> {
    set k | k in s.units && IsFootman(s.units[k])
  }

  function ArcherIds(s: GameState): set<int> {
    set k | k in s.units && !IsFootman(s.units[k])
  }

  /** The representation invariant every constructor establishes: each unit
      is stored under its own id. */
  predicate WellKeyed(units: map<int, GameUnit>) {
    forall k :: k in units ==> units[k].id == k
  }

  predicate InBounds(s: GameState, p: Pos) {
    0 <= p.x <= s.xExtent && 0 <= p.y <= s.yExtent
  }

  /** `isUnitAt`: some footman or some archer stands on `p`. */
  predicate IsUnitAt(s: GameState, p: Pos)
    ensures IsUnitAt(s, p) <==> exists k :: k in s.units && s.units[k].location == p
  {
    || (exists k :: k in FootmanIds(s) && s.units[k].location == p)
    || (exists k :: k in ArcherIds(s) && s.units[k].location == p)
  }

  /** `resultingLocation`: where unit `id` ends up after stepping in `d`. */
  function ResultingLocation(s: GameState, id: int, d: Direction): Pos
    requires id in s.units
  {
    Step(s.units[id].location, d)
  }

  /** `validMove`: the destination lies in [0, xExtent] x [0, yExtent]
      (both bounds inclusive), is not an obstacle and is not occupied. */
  predicate ValidMove(s: GameState, id: int, d: Direction)
    requires id in s.units
    ensures ValidMove(s, id, d) <==>
      var p := Step(s.units[id].location, d);
      && 0 <= p.x <= s.xExtent
      && 0 <= p.y <= s.yExtent
      && p !in s.resourceLocations
      && forall k :: k in s.units ==> s.units[k].location != p
  {
    var newLocation := ResultingLocation(s, id, d);
    && newLocation.x <= s.xExtent
    && newLocation.x >= 0
    && newLocation.y <= s.yExtent
    && newLocation.y >= 0
    && newLocation !in s.resourceLocations
    && !IsUnitAt(s, newLocation)
  }

  /** `movesBetween`: Manhattan distance between two units. */
  function MovesBetween(s: GameState, a: int, b: int): nat
    requires a in s.units && b in s.units
  {
    Abs(XPosition(s.units[a]) - XPosition(s.units[b]))
      + Abs(YPosition(s.units[a]) - YPosition(s.units[b]))
  }

  /** The distance `movesBetween` reports is the Manhattan distance of the
      two units' cells: symmetric, and 0 exactly when they share a cell. */
  lemma MovesBetweenIsManhattan(s: GameState, a: int, b: int)
    requires a in s.units && b in s.units
    ensures MovesBetween(s, a, b) == Manhattan(s.units[a].location, s.units[b].location)
    ensures MovesBetween(s, a, b) == MovesBetween(s, b, a)
    ensures MovesBetween(s, a, b) == 0 <==> s.units[a].location == s.units[b].location
  {
  }

  /** `validAttack`: the enemy is at most one orthogonal step away. */
  predicate ValidAttack(s: GameState, a: int, b: int)
    requires a in s.units && b in s.units
  {
    MovesBetween(s, a, b) <= 1
  }

  /** An attack is valid iff the target stands on the attacker's cell or on
      one of its four orthogonal neighbours; diagonal neighbours are out of
      reach. */
  lemma ValidAttackIffAdjacent(s: GameState, a: int, b: int)
    requires a in s.units && b in s.units
    ensures ValidAttack(s, a, b) <==>
      var p := s.units[a].location;
      var q := s.units[b].location;
      q == p || exists d :: q == Step(p, d)
  {
    AdjacentIffStep(s.units[a].location, s.units[b].location);
  }

  /** The scenario invariant: units are stored under their ids, alive, in
      bounds, off obstacles and on pairwise distinct cells. */
  ghost predicate Inv(s: GameState) {
    && WellKeyed(s.units)
    && (forall k :: k in s.units ==> s.units[k].hp > 0)
    && (forall k :: k in s.units ==> InBounds(s, s.units[k].location))
    && (forall k :: k in s.units ==> s.units[k].location !in s.resourceLocations)
    && (forall j, k :: j in s.units && k in s.units && j != k ==> s.units[j].location != s.units[k].location)
  }
}

=== FILE: game_unit.dfy ===
/** `GameUnit`: the agent's private record of one footman or archer. */
module GameUnits {
  import opened Grid

  datatype GameUnit = GameUnit(name: string, id: int, hp: int, attackDamage: int, location: Pos)

  /** The copy constructor `GameUnit(GameUnit old)`.  Datatype values have no
      identity, so the fresh location pair of the source is implicit: nothing
      done to the copy can be observed through the original. */
  function Copy(orig: GameUnit): (c: GameUnit)
    ensures c.name == orig.name && c.id == orig.id
    ensures c.hp == orig.hp && c.attackDamage == orig.attackDamage
    ensures XPosition(c) == XPosition(orig) && YPosition(c) == YPosition(orig)
  {
    GameUnit(orig.name, orig.id, orig.hp, orig.attackDamage, Pos(orig.location.x, orig.location.y))
  }

  /** `xPosition()`: the first component of the location pair. */
  function XPosition(u: GameUnit): int {
    u.location.x
  }

  /** `yPosition()`: the second component of the location pair. */
  function YPosition(u: GameUnit): int {
    u.location.y
  }

  /** The two accessors read the whole location: units agree on both
      exactly when they stand on the same cell. */
  lemma PositionsDetermineLocation(u: GameUnit, w: GameUnit)
    ensures XPosition(u) == XPosition(w) && YPosition(u) == YPosition(w) <==> u.location == w.location
    ensures Pos(XPosition(u), YPosition(u)) == u.location
  {
  }

  /** The unit after stepping once in direction `d` (the body of `performMove`). */
  function Moved(u: GameUnit, d: Direction): (m: GameUnit)
    ensures m.name == u.name && m.id == u.id && m.hp == u.hp && m.attackDamage == u.attackDamage
    ensures XPosition(m) == XPosition(u) + XComponent(d)
    ensures YPosition(m) == YPosition(u) + YComponent(d)
  {
    u.(location := Step(u.location, d))
  }

  /** A copy is indistinguishable from its original, and moving the copy
      leaves the original where it was. */
  lemma CopyIsIndependent(u: GameUnit, d: Direction)
    ensures Copy(u) == u
    ensures Manhattan(Moved(Copy(u), d).location, u.location) == 1
  {
    UnitStep(d);
  }
}

=== FILE: grid.dfy ===
/** The grid vocabulary the agent borrows from the SEPIA library: the four
    directions a unit may step in and integer coordinate pairs.  The library
    itself is not part of this model; the deltas follow SEPIA's convention
    (y grows southwards).  No proof depends on the sign chosen for NORTH and
    SOUTH: they use only that each direction is one unit step along one
    axis, and that the four directions cover the four neighbours. */
module Grid {

  datatype Direction = North | East | South | West

  /** `VALID_DIRECTIONS`: the order in which moves are tried. */
  const ValidDirections: seq<Direction> := [North, East, South, West]

  function XComponent(d: Direction): int {
    match d
    case East => 1
    case West => -1
    case _ => 0
  }

  function YComponent(d: Direction): int {
    match d
    case North => -1
    case South => 1
    case _ => 0
  }

  /** Position of a direction in `ValidDirections`. */
  function Rank(d: Direction): (i: nat)
    ensures i < |ValidDirections| && ValidDirections[i] == d
  {
    match d
    case North => 0
    case East => 1
    case South => 2
    case West => 3
  }

  function Abs(x: int): nat {
    if x < 0 then -x else x
  }

  /** A `Pair<Integer, Integer>` location. */
  datatype Pos = Pos(x: int, y: int)

  /** The cell one step from `p` in direction `d`. */
  function Step(p: Pos, d: Direction): Pos {
    Pos(p.x + XComponent(d), p.y + YComponent(d))
  }

  /** Manhattan distance between two cells. */
  function Manhattan(p: Pos, q: Pos): nat {
    Abs(p.x - q.x) + Abs(p.y - q.y)
  }

  /** Every direction moves exactly one cell along exactly one axis. */
  lemma UnitStep(d: Direction)
    ensures Abs(XComponent(d)) + Abs(YComponent(d)) == 1
  {
  }

  /** The cells at Manhattan distance at most one from `p` are `p` itself and
      its four orthogonal neighbours; diagonal neighbours are excluded. */
  lemma AdjacentIffStep(p: Pos, q: Pos)
    ensures Manhattan(p, q) <= 1 <==> (q == p || exists d :: q == Step(p, d))
  {
    if Manhattan(p, q) <= 1 && q != p {
      if q.x != p.x {
        assert q == Step(p, East) || q == Step(p, West);
      } else {
        assert q == Step(p, North) || q == Step(p, South);
      }
    }
    if exists d :: q == Step(p, d) {
      var d :| q == Step(p, d);
      UnitStep(d);
    }
  }
}

=== FILE: id_order.dfy ===
/** The fixed iteration order that replaces Java's `HashMap`/`HashSet`
    iteration order: keys are visited in ascending order. */
module IdOrder {

  /** The least element of a non-empty finite set of ids, found by
      induction on the set. */
  lemma {:induction false} LeastWitness(s: set<int>) returns (m: int)
    requires s != {}
    ensures m in s && forall k :: k in s ==> m <= k
    decreases s
  {
    // Names the case that would make `s` empty, so that the solver sees an
    // element of `s` exists.
    if forall y :: y !in s {
      assert false;
    }
    var x :| x in s;
    if s == {x} {
      m := x;
    } else {
      var least := LeastWitness(s - {x});
      m := if x < least then x else least;
      forall k | k in s
        ensures m <= k
      {
        if k != x {
          assert k in s - {x};
        }
      }
    }
  }

  /** Every non-empty finite set of ids has a least element. */
  lemma MinExists(s: set<int>)
    requires s != {}
    ensures exists m :: m in s && forall k :: k in s ==> m <= k
  {
    var m := LeastWitness(s);
  }

  /** The least element of a non-empty finite set of ids. */
  function MinOf(s: set<int>): (m: int)
    requires s != {}
    ensures m in s && forall k :: k in s ==> m <= k
  {
    MinExists(s);
    var m :| m in s && forall k :: k in s ==> m <= k;
    m
  }

  /** The elements of `s` listed once each, in strictly ascending order. */
  function Ascending(s: set<int>): (r: seq<int>)
    ensures |r| == |s|
    ensures forall k :: k in r <==> k in s
    ensures forall i, j :: 0 <= i < j < |r| ==> r[i] < r[j]
    decreases s
  {
    if s == {} then []
    else
      var m := MinOf(s);
      var rest := Ascending(s - {m});
      ConsAscending(s, m, rest);
      [m] + rest
  }

  /** Putting the least element in front of the ascending listing of the
      others lists the whole set in ascending order. */
  lemma ConsAscending(s: set<int>, m: int, rest: seq<int>)
    requires m in s && forall k :: k in s ==> m <= k
    requires |rest| == |s - {m}|
    requires forall k :: k in rest <==> k in s - {m}
    requires forall i, j :: 0 <= i < j < |rest| ==> rest[i] < rest[j]
    ensures |[m] + rest| == |s|
    ensures forall k :: k in [m] + rest <==> k in s
    ensures forall i, j :: 0 <= i < j < |[m] + rest| ==> ([m] + rest)[i] < ([m] + rest)[j]
  {
    var r := [m] + rest;
    forall i, j | 0 <= i < j < |r|
      ensures r[i] < r[j]
    {
      assert r[j] == rest[j - 1] && rest[j - 1] in rest;
      if i > 0 {
        assert r[i] == rest[i - 1];
      }
    }
  }
}

=== FILE: ordering.dfy ===
/** `orderChildrenWithHeuristics` and `compareGameStateChildren`: children
    are sorted, stably and in ASCENDING order, by 3 x attacks + 1 x south
    moves. */
module Ordering {
  import opened Grid
  import opened Actions
  import opened StableSort

  const AttackWeight: int := 3
  const SouthWeight: int := 1

  /** Number of attack entries of a joint action. */
  function Attacks(ja: JointAction): nat {
    if ja == [] then 0 else (if ja[0].1.Attack? then 1 else 0) + Attacks(ja[1..])
  }

  /** Number of moves to the south in a joint action. */
  function Souths(ja: JointAction): nat {
    if ja == [] then 0 else (if ja[0].1.Move? && ja[0].1.dir == South then 1 else 0) + Souths(ja[1..])
  }

  /** The heuristic score a child is sorted by. */
  function Score<S>(g: GameStateChild<S>): int {
    AttackWeight * Attacks(g.action) + SouthWeight * Souths(g.action)
  }

  /** `compareGameStateChildren`: the difference of the two scores. */
  function Compare<S>(g1: GameStateChild<S>, g2: GameStateChild<S>): (r: int)
    ensures r == Score(g1) - Score(g2)
  {
    (Attacks(g1.action) - Attacks(g2.action)) * AttackWeight
      + (Souths(g1.action) - Souths(g2.action)) * SouthWeight
  }

  /** The comparator's laws that `Collections.sort` relies on: zero on equal
      arguments, antisymmetric, transitive. */
  lemma CompareLaws<S>(a: GameStateChild<S>, b: GameStateChild<S>, c: GameStateChild<S>)
    ensures Compare(a, a) == 0
    ensures Compare(a, b) == -Compare(b, a)
    ensures Compare(a, b) <= 0 && Compare(b, c) <= 0 ==> Compare(a, c) <= 0
  {
  }

  /** `orderChildrenWithHeuristics`: a stable sort in ascending score order
      (`Collections.sort` with `compareGameStateChildren`).  The highest
      scores therefore come LAST, although the comment on the comparator
      calls attacks and south moves the promising ones. */
  function OrderChildren<S>(cs: seq<GameStateChild<S>>): (r: seq<GameStateChild<S>>)
    ensures multiset(r) == multiset(cs)
    ensures forall i, j :: 0 <= i < j < |r| ==> Score(r[i]) <= Score(r[j])
    ensures forall k :: WithKey(r, Score, k) == WithKey(cs, Score, k)
  {
    SortBy(cs, Score)
  }

  /** Any stable ascending sort of the children by score (the merge sort of
      `Collections.sort` included) produces exactly `OrderChildren`. */
  lemma OrderChildrenIsTheStableSort<S>(cs: seq<GameStateChild<S>>, other: seq<GameStateChild<S>>)
    requires forall i, j :: 0 <= i < j < |other| ==> Score(other[i]) <= Score(other[j])
    requires forall k :: WithKey(other, Score, k) == WithKey(cs, Score, k)
    ensures other == OrderChildren(cs)
  {
    StableSortUnique(other, OrderChildren(cs), Score);
  }
}

=== FILE: search.dfy ===
/** `alphaBetaSearch`: depth-limited alpha-beta search as the agent codes it.
    The search is generic over the state type: the game supplies the
    children of a state for the side to move and an integer utility. */
module Search {
  import opened Wrappers
  import opened Actions
  import opened StableSort
  import opened Ordering

  /** Integers extended with the sentinels `Double.NEGATIVE_INFINITY` and
      `Double.POSITIVE_INFINITY`. */
  datatype ExtInt = NegInf | Fin(n: int) | PosInf

  predicate Lt(a: ExtInt, b: ExtInt) {
    match (a, b)
    case (NegInf, NegInf) => false
    case (NegInf, _) => true
    case (Fin(x), Fin(y)) => x < y
    case (Fin(_), PosInf) => true
    case _ => false
  }

  predicate Le(a: ExtInt, b: ExtInt) {
    !Lt(b, a)
  }

  /** `Math.max`. */
  function Max(a: ExtInt, b: ExtInt): (m: ExtInt)
    ensures Le(a, m) && Le(b, m) && (m == a || m == b)
  {
    if Lt(a, b) then b else a
  }

  /** `Math.min`. */
  function Min(a: ExtInt, b: ExtInt): (m: ExtInt)
    ensures Le(m, a) && Le(m, b) && (m == a || m == b)
  {
    if Lt(b, a) then b else a
  }

  /** The agent: its configured number of plies, the move generator of the
      game for the maximizing (`true`) or minimizing side, and the utility. */
  datatype Agent<!S> = Agent(
    numPlys: int,
    children: (S, bool) -> seq<GameStateChild<S>>,
    utility: S -> int)

  /** What `alphaBetaSearch` yields: a child, `null` (no child was chosen),
      or the `NullPointerException` raised when a recursive call returned
      `null` and its `.state` was read. */
  datatype Outcome<S> = Found(node: GameStateChild<S>) | Null | NullDereference

  /** The loop variables of one level: the best value `v` and child `ret`
      so far, the window, the child values computed so far (in order) and
      whether the loop stopped at a `break`.  `Aborted` is the exception,
      raised at the child after those whose values are `seen`. */
  datatype Scan<S> =
    | Scan(v: ExtInt, ret: Option<GameStateChild<S>>, alpha: ExtInt, beta: ExtInt, seen: seq<int>, pruned: bool)
    | Aborted(seen: seq<int>)

  /** Java's `%`, which truncates towards zero. */
  function JavaRem(a: int, b: int): int
    requires b != 0
  {
    var m := if b < 0 then -b else b;
    if a >= 0 then a % m else -((-a) % m)
  }

  /** `numPlys % 2 == depth % 2`: the levels that maximize.  For a
      non-negative ply count these are the levels an even number of plies
      below the root. */
  predicate IsMaxLevel(numPlys: int, depth: nat)
    ensures numPlys >= 0 ==> (IsMaxLevel(numPlys, depth) <==> (numPlys - depth) % 2 == 0)
  {
    JavaRem(numPlys, 2) == JavaRem(depth, 2)
  }

  /** The index of the first best value: the first maximum when maximizing,
      the first minimum otherwise. */
  function FirstBest(xs: seq<int>, maximizing: bool): (i: nat)
    requires xs != []
    ensures i < |xs|
    ensures forall j :: 0 <= j < |xs| ==> if maximizing then xs[j] <= xs[i] else xs[i] <= xs[j]
    ensures forall j :: 0 <= j < i ==> if maximizing then xs[j] < xs[i] else xs[i] < xs[j]
  {
    if |xs| == 1 then 0
    else
      var init := xs[..|xs| - 1];
      var i := FirstBest(init, maximizing);
      assert forall j :: 0 <= j < |init| ==> init[j] == xs[j];
      var last := xs[|xs| - 1];
      if (if maximizing then last > xs[i] else last < xs[i]) then |xs| - 1 else i
  }

  /** `alphaBetaSearch(node, depth, alpha, beta)`. */
  function AlphaBetaSearch<S>(a: Agent<S>, node: GameStateChild<S>, depth: nat, alpha: ExtInt, beta: ExtInt): (r: Outcome<S>)
    ensures depth == 0 ==> r == Found(node)
    decreases depth, 2
  {
    if depth == 0 then
      Found(node)
    else
      match LevelScan(a, node, depth, alpha, beta)
      case Aborted(_) => NullDereference
      case Scan(_, ret, _, _, _, _) => if ret.None? then Null else Found(ret.value)
  }

  /** The initial loop variables of a level. */
  function StartScan<S>(maximizing: bool, alpha: ExtInt, beta: ExtInt): Scan<S> {
    Scan(if maximizing then NegInf else PosInf, None, alpha, beta, [], false)
  }

  /** The ordered children a level iterates over. */
  function LevelChildren<S>(a: Agent<S>, node: GameStateChild<S>, depth: nat): seq<GameStateChild<S>> {
    OrderChildren(a.children(node.state, IsMaxLevel(a.numPlys, depth)))
  }

  /** The loop of one level, run to completion. */
  function LevelScan<S>(a: Agent<S>, node: GameStateChild<S>, depth: nat, alpha: ExtInt, beta: ExtInt): Scan<S>
    requires depth >= 1
    decreases depth, 1
  {
    var maximizing := IsMaxLevel(a.numPlys, depth);
    ScanChildren(a, LevelChildren(a, node, depth), depth, maximizing, StartScan(maximizing, alpha, beta))
  }

  /** The `for` loop over the ordered children `cs`, from the loop
      variables `st`. */
  function ScanChildren<S>(a: Agent<S>, cs: seq<GameStateChild<S>>, depth: nat, maximizing: bool, st: Scan<S>): Scan<S>
    requires depth >= 1 && st.Scan?
    decreases depth, 0, |cs|, 0
  {
    if cs == [] then st
    else
      match AlphaBetaSearch(a, cs[0], depth - 1, st.alpha, st.beta)
      case Found(n) => AfterChild(a, cs[1..], depth, maximizing, Record(maximizing, st, cs[0], a.utility(n.state)))
      case _ => Aborted(st.seen)
  }

  /** The value `u` of child `c` replaces the best so far only when it is
      strictly better (`childUtility > v` / `childUtility < v`). */
  function Record<S>(maximizing: bool, st: Scan<S>, c: GameStateChild<S>, u: int): Scan<S>
    requires st.Scan?
  {
    var improved := if maximizing then Lt(st.v, Fin(u)) else Lt(Fin(u), st.v);
    st.(v := if improved then Fin(u) else st.v,
        ret := if improved then Some(c) else st.ret,
        seen := st.seen + [u])
  }

  /** The end of an iteration: `break` at a cutoff, otherwise narrow the
      window and go on with the remaining children `rest`. */
  function AfterChild<S>(a: Agent<S>, rest: seq<GameStateChild<S>>, depth: nat, maximizing: bool, st: Scan<S>): Scan<S>
    requires depth >= 1 && st.Scan?
    decreases depth, 0, |rest|, 1
  {
    if maximizing then
      if Le(st.beta, st.v) then st.(pruned := true)
      else ScanChildren(a, rest, depth, maximizing, st.(alpha := Max(st.v, st.alpha)))
    else
      if Le(st.v, st.alpha) then st.(pruned := true)
      else ScanChildren(a, rest, depth, maximizing, st.(beta := Min(st.v, st.beta)))
  }

  /** The utility of the node returned by searching `c` at `depth` in the
      window (`alpha`, `beta`), if a node is returned. */
  function SearchValue<S>(a: Agent<S>, c: GameStateChild<S>, depth: nat, alpha: ExtInt, beta: ExtInt): Option<int> {
    match AlphaBetaSearch(a, c, depth, alpha, beta)
    case Found(n) => Some(a.utility(n.state))
    case _ => None
  }

  /** The best of the values `xs`, or the sentinel `v` starts with when
      there is none. */
  function BestOf(xs: seq<int>, maximizing: bool): ExtInt {
    if xs == [] then (if maximizing then NegInf else PosInf)
    else Fin(xs[FirstBest(xs, maximizing)])
  }

  /** The `alpha` in force when the loop reaches child `i`, the values of
      the children before it being `seen[..i]`: on a maximizing level, once
      a child has been examined, the best value so far or `alpha0`,
      whichever is larger; `alpha0` otherwise. */
  function AlphaAt(seen: seq<int>, maximizing: bool, alpha0: ExtInt, i: nat): ExtInt
    requires i <= |seen|
  {
    if maximizing && i > 0 then Max(BestOf(seen[..i], maximizing), alpha0) else alpha0
  }

  /** The `beta` in force when the loop reaches child `i` (the mirror image
      of `AlphaAt`). */
  function BetaAt(seen: seq<int>, maximizing: bool, beta0: ExtInt, i: nat): ExtInt
    requires i <= |seen|
  {
    if !maximizing && i > 0 then Min(BestOf(seen[..i], maximizing), beta0) else beta0
  }

  /** The `break` test after child `i`: `v >= beta` when maximizing and
      `v <= alpha` when minimizing.  The bound tested is the one the level
      never narrows, so it is still the initial one. */
  predicate CutAfter(seen: seq<int>, maximizing: bool, alpha0: ExtInt, beta0: ExtInt, i: nat)
    requires i < |seen|
  {
    var v := BestOf(seen[..i + 1], maximizing);
    if maximizing then Le(beta0, v) else Le(v, alpha0)
  }

  /** `v` and `ret` are the best value among the child values seen so far
      and the first child of that value (the initial sentinel and `null`
      before any child). */
  ghost predicate BestSoFar<S>(full: seq<GameStateChild<S>>, maximizing: bool, st: Scan<S>)
    requires st.Scan? && |st.seen| <= |full|
  {
    && st.v == BestOf(st.seen, maximizing)
    && (st.seen == [] ==> st.ret == None)
    && (st.seen != [] ==> st.ret == Some(full[FirstBest(st.seen, maximizing)]))
  }

  /** Recording the next child's value keeps `v` and `ret` the first best. */
  lemma RecordKeepsBest<S>(full: seq<GameStateChild<S>>, maximizing: bool, st: Scan<S>, u: int)
    requires st.Scan? && |st.seen| < |full|
    requires BestSoFar(full, maximizing, st)
    ensures BestSoFar(full, maximizing, Record(maximizing, st, full[|st.seen|], u))
  {
    var k := |st.seen|;
    var st1 := Record(maximizing, st, full[k], u);
    var j1 := FirstBest(st1.seen, maximizing);
    FirstBestSnoc(st.seen, u, maximizing);
    if st.seen == [] {
      assert j1 == 0 && st1.seen[0] == u;
    } else {
      var j := FirstBest(st.seen, maximizing);
      assert st.v == Fin(st.seen[j]);
      if (if maximizing then u > st.seen[j] else u < st.seen[j]) {
        assert j1 == k && st1.seen[k] == u;
      } else {
        assert j1 == j && st1.seen[j] == st.seen[j];
      }
    }
  }

  /** The loop invariant, relative to the full child list `full` and the
      window `alpha0`, `beta0` the level started with, when `k` children
      have passed the `break` test: `v` and `ret` are the first best so far;
      the window is the one in force at child `k`; every examined child was
      searched in the window in force when the loop reached it; and none of
      the first `k` triggered a cutoff. */
  ghost predicate ScanInv<S>(a: Agent<S>, full: seq<GameStateChild<S>>, depth: nat, maximizing: bool,
                             alpha0: ExtInt, beta0: ExtInt, st: Scan<S>, k: nat)
    requires depth >= 1
  {
    && st.Scan?
    && k <= |st.seen| <= |full|
    && BestSoFar(full, maximizing, st)
    && st.alpha == AlphaAt(st.seen, maximizing, alpha0, k)
    && st.beta == BetaAt(st.seen, maximizing, beta0, k)
    && (forall i :: 0 <= i < |st.seen| ==>
          SearchValue(a, full[i], depth - 1, AlphaAt(st.seen, maximizing, alpha0, i),
                      BetaAt(st.seen, maximizing, beta0, i)) == Some(st.seen[i]))
    && (forall i :: 0 <= i < k ==> !CutAfter(st.seen, maximizing, alpha0, beta0, i))
  }

  /** Extending the values by one: the first best index moves to the new
      value exactly when it is strictly better. */
  lemma FirstBestSnoc(xs: seq<int>, u: int, maximizing: bool)
    ensures FirstBest(xs + [u], maximizing)
      == if xs == [] then 0
         else if (if maximizing then u > xs[FirstBest(xs, maximizing)] else u < xs[FirstBest(xs, maximizing)]) then |xs|
         else FirstBest(xs, maximizing)
  {
    var ys := xs + [u];
    assert ys[..|ys| - 1] == xs;
  }

  /** The best value only improves as values are added. */
  lemma BestOfSnoc(xs: seq<int>, u: int, maximizing: bool)
    ensures maximizing ==> Le(BestOf(xs, maximizing), BestOf(xs + [u], maximizing))
    ensures !maximizing ==> Le(BestOf(xs + [u], maximizing), BestOf(xs, maximizing))
  {
    FirstBestSnoc(xs, u, maximizing);
    if xs != [] {
      var ys := xs + [u];
      assert ys[FirstBest(xs, maximizing)] == xs[FirstBest(xs, maximizing)];
    }
  }

  /** Recording a value leaves the windows and the cutoff tests of the
      earlier children as they were. */
  lemma SnocStable(seen: seq<int>, u: int, maximizing: bool, alpha0: ExtInt, beta0: ExtInt)
    ensures forall i :: 0 <= i <= |seen| ==>
      && AlphaAt(seen + [u], maximizing, alpha0, i) == AlphaAt(seen, maximizing, alpha0, i)
      && BetaAt(seen + [u], maximizing, beta0, i) == BetaAt(seen, maximizing, beta0, i)
    ensures forall i :: 0 <= i < |seen| ==>
      CutAfter(seen + [u], maximizing, alpha0, beta0, i) == CutAfter(seen, maximizing, alpha0, beta0, i)
  {
    forall i | 0 <= i <= |seen|
      ensures (seen + [u])[..i] == seen[..i]
    {
    }
  }

  /** Narrowing the window after the last child keeps the closed form:
      `Math.max(v, alpha)` is the best so far or `alpha0`, whichever is
      larger, because the best so far never decreases. */
  lemma WindowStep(seen: seq<int>, maximizing: bool, alpha0: ExtInt, beta0: ExtInt)
    requires seen != []
    ensures maximizing ==>
      Max(BestOf(seen, maximizing), AlphaAt(seen, maximizing, alpha0, |seen| - 1)) == AlphaAt(seen, maximizing, alpha0, |seen|)
    ensures !maximizing ==>
      Min(BestOf(seen, maximizing), BetaAt(seen, maximizing, beta0, |seen| - 1)) == BetaAt(seen, maximizing, beta0, |seen|)
  {
    var n := |seen|;
    assert seen[..n] == seen;
    if n > 1 {
      var p := seen[..n - 1];
      assert seen == p + [seen[n - 1]];
      BestOfSnoc(p, seen[n - 1], maximizing);
    }
  }

  /** One iteration keeps the invariant (see `ScanChildrenSpec`). */
  lemma ScanStep<S>(a: Agent<S>, full: seq<GameStateChild<S>>, depth: nat, maximizing: bool,
                    alpha0: ExtInt, beta0: ExtInt, st: Scan<S>, u: int)
    requires depth >= 1 && st.Scan?
    requires ScanInv(a, full, depth, maximizing, alpha0, beta0, st, |st.seen|)
    requires |st.seen| < |full|
    requires SearchValue(a, full[|st.seen|], depth - 1, st.alpha, st.beta) == Some(u)
    ensures ScanInv(a, full, depth, maximizing, alpha0, beta0, Record(maximizing, st, full[|st.seen|], u), |st.seen|)
  {
    var st1 := Record(maximizing, st, full[|st.seen|], u);
    var k := |st.seen|;
    RecordKeepsBest(full, maximizing, st, u);
    SnocStable(st.seen, u, maximizing, alpha0, beta0);
    assert st1.seen == st.seen + [u];
    forall i | 0 <= i < |st1.seen|
      ensures SearchValue(a, full[i], depth - 1, AlphaAt(st1.seen, maximizing, alpha0, i),
                          BetaAt(st1.seen, maximizing, beta0, i)) == Some(st1.seen[i])
    {
      if i < k {
        assert st1.seen[i] == st.seen[i];
      }
    }
  }

  /** What the loop promises when it returns `r`, having started with `k`
      children examined.  Its loop variables are the first best so far;
      every examined child was searched in the window in force when the loop
      reached it; it examined at least one more child if there was one; no
      examined child but the last triggered a cutoff; it broke off exactly
      when the last one did; and without a break it examined every child.
      If it throws instead, every child before the one that threw was
      searched in its window without a cutoff, and the search of that child,
      in the window in force when the loop reached it, returned no node. */
  ghost predicate ScanPost<S>(a: Agent<S>, full: seq<GameStateChild<S>>, depth: nat, maximizing: bool,
                              alpha0: ExtInt, beta0: ExtInt, k: nat, r: Scan<S>)
    requires depth >= 1
  {
    && (r.Scan? ==>
      && |r.seen| <= |full|
      && BestSoFar(full, maximizing, r)
      && (forall i :: 0 <= i < |r.seen| ==>
            SearchValue(a, full[i], depth - 1, AlphaAt(r.seen, maximizing, alpha0, i),
                        BetaAt(r.seen, maximizing, beta0, i)) == Some(r.seen[i]))
      && k <= |r.seen|
      && (k < |full| ==> |r.seen| > k)
      && (forall i :: 0 <= i < |r.seen| - 1 ==> !CutAfter(r.seen, maximizing, alpha0, beta0, i))
      && (r.pruned <==> r.seen != [] && CutAfter(r.seen, maximizing, alpha0, beta0, |r.seen| - 1))
      && (!r.pruned ==> |r.seen| == |full|))
    && (r.Aborted? ==> k <= |r.seen| && ThrowsAt(a, full, depth, maximizing, alpha0, beta0, r.seen))
  }

  /** The loop over `full`, started with the window (`alpha0`, `beta0`),
      throws at child `|seen|`: the children before it had the values
      `seen`, each searched in the window in force when the loop reached it,
      none of them triggered a cutoff, and the search of child `|seen|` in
      its window returned no node (`null`, or an exception of its own). */
  ghost predicate ThrowsAt<S>(a: Agent<S>, full: seq<GameStateChild<S>>, depth: nat, maximizing: bool,
                              alpha0: ExtInt, beta0: ExtInt, seen: seq<int>)
    requires depth >= 1
  {
    && |seen| < |full|
    && (forall i :: 0 <= i < |seen| ==>
          SearchValue(a, full[i], depth - 1, AlphaAt(seen, maximizing, alpha0, i),
                      BetaAt(seen, maximizing, beta0, i)) == Some(seen[i]))
    && (forall i :: 0 <= i < |seen| ==> !CutAfter(seen, maximizing, alpha0, beta0, i))
    && SearchValue(a, full[|seen|], depth - 1, AlphaAt(seen, maximizing, alpha0, |seen|),
                   BetaAt(seen, maximizing, beta0, |seen|)) == None
  }

  /** The loop from loop variables satisfying the invariant keeps its
      promise. */
  lemma {:induction false} ScanChildrenSpec<S>(a: Agent<S>, full: seq<GameStateChild<S>>, depth: nat, maximizing: bool,
                                               alpha0: ExtInt, beta0: ExtInt, st: Scan<S>)
    requires depth >= 1 && st.Scan?
    requires ScanInv(a, full, depth, maximizing, alpha0, beta0, st, |st.seen|)
    requires !st.pruned
    ensures ScanPost(a, full, depth, maximizing, alpha0, beta0, |st.seen|,
                     ScanChildren(a, full[|st.seen|..], depth, maximizing, st))
    decreases |full| - |st.seen|, 2
  {
    var cs := full[|st.seen|..];
    var r := ScanChildren(a, cs, depth, maximizing, st);
    if cs == [] {
      assert r == st;
      EndPost(a, full, depth, maximizing, alpha0, beta0, st);
    } else {
      assert cs[0] == full[|st.seen|];
      var res := AlphaBetaSearch(a, cs[0], depth - 1, st.alpha, st.beta);
      if res.Found? {
        var u := a.utility(res.node.state);
        assert SearchValue(a, full[|st.seen|], depth - 1, st.alpha, st.beta) == Some(u);
        assert full[|st.seen| + 1..] == cs[1..];
        assert r == AfterChild(a, full[|st.seen| + 1..], depth, maximizing, Record(maximizing, st, full[|st.seen|], u));
        FoundPost(a, full, depth, maximizing, alpha0, beta0, st, u);
      } else {
        assert r == Aborted(st.seen);
        AbortPost(a, full, depth, maximizing, alpha0, beta0, st);
      }
    }
  }

  /** Recording the value of the next child and finishing the iteration
      keeps the loop's promise. */
  lemma {:induction false} FoundPost<S>(a: Agent<S>, full: seq<GameStateChild<S>>, depth: nat, maximizing: bool,
                                        alpha0: ExtInt, beta0: ExtInt, st: Scan<S>, u: int)
    requires depth >= 1 && st.Scan? && !st.pruned
    requires ScanInv(a, full, depth, maximizing, alpha0, beta0, st, |st.seen|)
    requires |st.seen| < |full|
    requires SearchValue(a, full[|st.seen|], depth - 1, st.alpha, st.beta) == Some(u)
    ensures ScanPost(a, full, depth, maximizing, alpha0, beta0, |st.seen|,
                     AfterChild(a, full[|st.seen| + 1..], depth, maximizing, Record(maximizing, st, full[|st.seen|], u)))
    decreases |full| - |st.seen|, 1
  {
    ScanStep(a, full, depth, maximizing, alpha0, beta0, st, u);
    var st1 := Record(maximizing, st, full[|st.seen|], u);
    assert |st1.seen| == |st.seen| + 1;
    AfterChildSpec(a, full, depth, maximizing, alpha0, beta0, st1);
  }

  /** A child whose search returns no node ends the loop with the exception,
      which keeps the loop's promise. */
  lemma AbortPost<S>(a: Agent<S>, full: seq<GameStateChild<S>>, depth: nat, maximizing: bool,
                     alpha0: ExtInt, beta0: ExtInt, st: Scan<S>)
    requires depth >= 1 && st.Scan?
    requires ScanInv(a, full, depth, maximizing, alpha0, beta0, st, |st.seen|)
    requires |st.seen| < |full|
    requires SearchValue(a, full[|st.seen|], depth - 1, st.alpha, st.beta) == None
    ensures ScanPost(a, full, depth, maximizing, alpha0, beta0, |st.seen|, Aborted(st.seen))
  {
  }

  /** Running out of children keeps the loop's promise. */
  lemma EndPost<S>(a: Agent<S>, full: seq<GameStateChild<S>>, depth: nat, maximizing: bool,
                   alpha0: ExtInt, beta0: ExtInt, st: Scan<S>)
    requires depth >= 1 && st.Scan? && !st.pruned
    requires ScanInv(a, full, depth, maximizing, alpha0, beta0, st, |st.seen|)
    requires |st.seen| == |full|
    ensures ScanPost(a, full, depth, maximizing, alpha0, beta0, |st.seen|, st)
  {
  }

  /** The end of an iteration keeps the loop's promise: it breaks exactly
      at a cutoff, and otherwise narrows the window to the one in force at
      the next child. */
  lemma {:induction false} AfterChildSpec<S>(a: Agent<S>, full: seq<GameStateChild<S>>, depth: nat, maximizing: bool,
                                             alpha0: ExtInt, beta0: ExtInt, st: Scan<S>)
    requires depth >= 1
    requires st.Scan? && st.seen != [] && !st.pruned
    requires ScanInv(a, full, depth, maximizing, alpha0, beta0, st, |st.seen| - 1)
    ensures ScanPost(a, full, depth, maximizing, alpha0, beta0, |st.seen| - 1,
                     AfterChild(a, full[|st.seen|..], depth, maximizing, st))
    decreases |full| - |st.seen| + 1, 0
  {
    var n := |st.seen|;
    var r := AfterChild(a, full[n..], depth, maximizing, st);
    CutIffTest(maximizing, alpha0, beta0, full, st);
    if maximizing && !Le(st.beta, st.v) {
      var st2 := st.(alpha := Max(st.v, st.alpha));
      assert r == ScanChildren(a, full[|st2.seen|..], depth, maximizing, st2);
      NarrowKeepsInv(a, full, depth, maximizing, alpha0, beta0, st);
      ScanChildrenSpec(a, full, depth, maximizing, alpha0, beta0, st2);
      PostWeaken(a, full, depth, maximizing, alpha0, beta0, n, r);
    } else if !maximizing && !Le(st.v, st.alpha) {
      var st2 := st.(beta := Min(st.v, st.beta));
      assert r == ScanChildren(a, full[|st2.seen|..], depth, maximizing, st2);
      NarrowKeepsInv(a, full, depth, maximizing, alpha0, beta0, st);
      ScanChildrenSpec(a, full, depth, maximizing, alpha0, beta0, st2);
      PostWeaken(a, full, depth, maximizing, alpha0, beta0, n, r);
    } else {
      assert r == st.(pruned := true);
      PrunedPost(a, full, depth, maximizing, alpha0, beta0, st);
    }
  }

  /** A promise made from `k` examined children holds from `k - 1`. */
  lemma PostWeaken<S>(a: Agent<S>, full: seq<GameStateChild<S>>, depth: nat, maximizing: bool,
                      alpha0: ExtInt, beta0: ExtInt, k: nat, r: Scan<S>)
    requires depth >= 1 && k >= 1
    requires ScanPost(a, full, depth, maximizing, alpha0, beta0, k, r)
    ensures ScanPost(a, full, depth, maximizing, alpha0, beta0, k - 1, r)
  {
  }

  /** Breaking off at a cutoff keeps the loop's promise. */
  lemma PrunedPost<S>(a: Agent<S>, full: seq<GameStateChild<S>>, depth: nat, maximizing: bool,
                      alpha0: ExtInt, beta0: ExtInt, st: Scan<S>)
    requires depth >= 1
    requires st.Scan? && st.seen != []
    requires ScanInv(a, full, depth, maximizing, alpha0, beta0, st, |st.seen| - 1)
    requires CutAfter(st.seen, maximizing, alpha0, beta0, |st.seen| - 1)
    ensures ScanPost(a, full, depth, maximizing, alpha0, beta0, |st.seen| - 1, st.(pruned := true))
  {
    var r := st.(pruned := true);
    assert BestSoFar(full, maximizing, r);
  }

  /** The source's `break` test on the loop variables is the cutoff test
      after the last examined child. */
  lemma CutIffTest<S>(maximizing: bool, alpha0: ExtInt, beta0: ExtInt, full: seq<GameStateChild<S>>, st: Scan<S>)
    requires st.Scan? && st.seen != [] && |st.seen| <= |full| && BestSoFar(full, maximizing, st)
    requires st.alpha == AlphaAt(st.seen, maximizing, alpha0, |st.seen| - 1)
    requires st.beta == BetaAt(st.seen, maximizing, beta0, |st.seen| - 1)
    ensures (if maximizing then Le(st.beta, st.v) else Le(st.v, st.alpha))
      <==> CutAfter(st.seen, maximizing, alpha0, beta0, |st.seen| - 1)
  {
    assert st.seen[..|st.seen| - 1 + 1] == st.seen;
  }

  /** Narrowing the window when no cutoff occurs gives the window in force
      at the next child. */
  lemma NarrowKeepsInv<S>(a: Agent<S>, full: seq<GameStateChild<S>>, depth: nat, maximizing: bool,
                          alpha0: ExtInt, beta0: ExtInt, st: Scan<S>)
    requires depth >= 1
    requires st.Scan? && st.seen != []
    requires ScanInv(a, full, depth, maximizing, alpha0, beta0, st, |st.seen| - 1)
    requires !CutAfter(st.seen, maximizing, alpha0, beta0, |st.seen| - 1)
    ensures maximizing ==>
      ScanInv(a, full, depth, maximizing, alpha0, beta0, st.(alpha := Max(st.v, st.alpha)), |st.seen|)
    ensures !maximizing ==>
      ScanInv(a, full, depth, maximizing, alpha0, beta0, st.(beta := Min(st.v, st.beta)), |st.seen|)
  {
    WindowStep(st.seen, maximizing, alpha0, beta0);
    var st2 := if maximizing then st.(alpha := Max(st.v, st.alpha)) else st.(beta := Min(st.v, st.beta));
    assert BestSoFar(full, maximizing, st2);
  }

  /** What one level of the search does, for `depth >= 1`:
      - it returns `null` exactly when the side to move has no children,
        and otherwise (barring an exception) a member of that list;
      - the chosen child is the FIRST, in heuristic order, whose value is
        best among the children examined (ties keep the earlier child);
      - each examined child's value is the utility of the node returned by
        searching it one ply shallower, in the window in force when the loop
        reached it: `alpha` raised to the best value so far when maximizing,
        `beta` lowered to it when minimizing;
      - the loop goes on exactly while no cutoff occurs: no examined child
        but the last triggered one, it broke off iff the last one did, and
        without a break it examined every child;
      - it never breaks when the window is open on the side it could cut;
      - it throws exactly when the loop aborts, and the loop aborts only at
        a child reached without a cutoff whose own search, in the window in
        force when the loop reached it, returns no node. */
  lemma LevelSpec<S>(a: Agent<S>, node: GameStateChild<S>, depth: nat, alpha: ExtInt, beta: ExtInt)
    requires depth >= 1
    ensures var maximizing := IsMaxLevel(a.numPlys, depth);
      var cs := LevelChildren(a, node, depth);
      var st := LevelScan(a, node, depth, alpha, beta);
      var r := AlphaBetaSearch(a, node, depth, alpha, beta);
      && (r.Null? <==> a.children(node.state, maximizing) == [])
      && (r.Found? ==> r.node in a.children(node.state, maximizing))
      && (r.NullDereference? <==> st.Aborted?)
      && (st.Aborted? ==> ThrowsAt(a, cs, depth, maximizing, alpha, beta, st.seen))
      && (st.Scan? && cs != [] ==>
            && 1 <= |st.seen| <= |cs|
            && r == Found(cs[FirstBest(st.seen, maximizing)])
            && LevelLoop(a, cs, depth, maximizing, alpha, beta, st))
  {
    var maximizing := IsMaxLevel(a.numPlys, depth);
    var children := a.children(node.state, maximizing);
    var cs := LevelChildren(a, node, depth);
    var start: Scan<S> := StartScan(maximizing, alpha, beta);
    var st := LevelScan(a, node, depth, alpha, beta);
    assert ScanInv(a, cs, depth, maximizing, alpha, beta, start, 0);
    assert cs[|start.seen|..] == cs;
    ScanChildrenSpec(a, cs, depth, maximizing, alpha, beta, start);
    assert st == ScanChildren(a, cs[|start.seen|..], depth, maximizing, start);
    PostFacts(a, cs, depth, maximizing, alpha, beta, st);
    LevelOutcome(a, node, depth, alpha, beta);
    assert |cs| == |children| by {
      assert |multiset(cs)| == |multiset(children)|;
    }
    if st.Scan? && st.ret.Some? {
      var i := FirstBest(st.seen, maximizing);
      assert cs[i] in multiset(cs);
    }
  }

  /** A level throws exactly when its loop aborts; otherwise it returns the
      loop's `ret`, `null` standing for none. */
  lemma LevelOutcome<S>(a: Agent<S>, node: GameStateChild<S>, depth: nat, alpha: ExtInt, beta: ExtInt)
    requires depth >= 1
    ensures var st := LevelScan(a, node, depth, alpha, beta);
      var r := AlphaBetaSearch(a, node, depth, alpha, beta);
      && (r.NullDereference? <==> st.Aborted?)
      && (st.Scan? ==> (r.Null? <==> st.ret.None?) && (r.Found? ==> st.ret == Some(r.node)))
  {
  }

  /** The loop of a level over the ordered children `cs`, started with the
      window (`alpha`, `beta`), as `LevelSpec` describes it. */
  ghost predicate LevelLoop<S>(a: Agent<S>, cs: seq<GameStateChild<S>>, depth: nat, maximizing: bool,
                               alpha: ExtInt, beta: ExtInt, st: Scan<S>)
    requires depth >= 1 && st.Scan? && 1 <= |st.seen| <= |cs|
  {
    && st.v == Fin(st.seen[FirstBest(st.seen, maximizing)])
    && (forall i :: 0 <= i < |st.seen| ==>
          SearchValue(a, cs[i], depth - 1, AlphaAt(st.seen, maximizing, alpha, i),
                      BetaAt(st.seen, maximizing, beta, i)) == Some(st.seen[i]))
    && (forall i :: 0 <= i < |st.seen| - 1 ==> !CutAfter(st.seen, maximizing, alpha, beta, i))
    && (st.pruned <==> CutAfter(st.seen, maximizing, alpha, beta, |st.seen| - 1))
    && (!st.pruned ==> |st.seen| == |cs|)
    && (st.pruned ==> if maximizing then Le(beta, st.v) else Le(st.v, alpha))
    && ((maximizing && beta == PosInf) || (!maximizing && alpha == NegInf) ==> !st.pruned)
  }

  /** The loop's promise from no examined child, restated for a level. */
  lemma PostFacts<S>(a: Agent<S>, cs: seq<GameStateChild<S>>, depth: nat, maximizing: bool,
                     alpha: ExtInt, beta: ExtInt, st: Scan<S>)
    requires depth >= 1
    requires ScanPost(a, cs, depth, maximizing, alpha, beta, 0, st)
    ensures st.Scan? ==> (st.ret.None? <==> cs == [])
    ensures st.Aborted? ==> ThrowsAt(a, cs, depth, maximizing, alpha, beta, st.seen)
    ensures st.Scan? && cs != [] ==>
      && 1 <= |st.seen| <= |cs|
      && st.ret == Some(cs[FirstBest(st.seen, maximizing)])
      && LevelLoop(a, cs, depth, maximizing, alpha, beta, st)
  {
    if st.Scan? && cs != [] {
      LastCut(st.seen, maximizing, alpha, beta);
    }
  }

  /** The cutoff test after the last examined child compares the best of
      all the values with the bound, and never holds while that bound is
      infinite. */
  lemma LastCut(seen: seq<int>, maximizing: bool, alpha: ExtInt, beta: ExtInt)
    requires seen != []
    ensures CutAfter(seen, maximizing, alpha, beta, |seen| - 1) <==>
      if maximizing then Le(beta, BestOf(seen, maximizing)) else Le(BestOf(seen, maximizing), alpha)
    ensures (maximizing && beta == PosInf) || (!maximizing && alpha == NegInf) ==>
      !CutAfter(seen, maximizing, alpha, beta, |seen| - 1)
  {
    assert seen[..|seen| - 1 + 1] == seen;
  }

  /** The loop breaks at the first cutoff: if the best value after child
      `j` reaches `beta` (maximizing) or falls to `alpha` (minimizing), no
      later child is searched and the level reports a break. */
  lemma StopsAtFirstCutoff<S>(a: Agent<S>, node: GameStateChild<S>, depth: nat, alpha: ExtInt, beta: ExtInt, j: nat)
    requires depth >= 1
    requires LevelScan(a, node, depth, alpha, beta).Scan?
    requires j < |LevelScan(a, node, depth, alpha, beta).seen|
    requires var st := LevelScan(a, node, depth, alpha, beta);
      var v := BestOf(st.seen[..j + 1], IsMaxLevel(a.numPlys, depth));
      if IsMaxLevel(a.numPlys, depth) then Le(beta, v) else Le(v, alpha)
    ensures LevelScan(a, node, depth, alpha, beta).pruned
    ensures |LevelScan(a, node, depth, alpha, beta).seen| == j + 1
  {
    var maximizing := IsMaxLevel(a.numPlys, depth);
    var st := LevelScan(a, node, depth, alpha, beta);
    LevelSpec(a, node, depth, alpha, beta);
    assert CutAfter(st.seen, maximizing, alpha, beta, j);
    assert LevelLoop(a, LevelChildren(a, node, depth), depth, maximizing, alpha, beta, st);
  }

  /** Two runs of the loop over the same children that agree on how each
      examined child was searched agree on the first `n` values, and hence
      on the window in force at child `n` and on the cutoff test after the
      child before it: the values so far determine the rest. */
  lemma {:induction false} PrefixDetermined<S>(a: Agent<S>, full: seq<GameStateChild<S>>, depth: nat, maximizing: bool,
                                               alpha0: ExtInt, beta0: ExtInt, s1: seq<int>, s2: seq<int>, n: nat)
    requires depth >= 1 && n <= |s1| && n <= |s2| && n <= |full|
    requires forall i :: 0 <= i < n ==>
      SearchValue(a, full[i], depth - 1, AlphaAt(s1, maximizing, alpha0, i), BetaAt(s1, maximizing, beta0, i)) == Some(s1[i])
    requires forall i :: 0 <= i < n ==>
      SearchValue(a, full[i], depth - 1, AlphaAt(s2, maximizing, alpha0, i), BetaAt(s2, maximizing, beta0, i)) == Some(s2[i])
    ensures s1[..n] == s2[..n]
    ensures AlphaAt(s1, maximizing, alpha0, n) == AlphaAt(s2, maximizing, alpha0, n)
    ensures BetaAt(s1, maximizing, beta0, n) == BetaAt(s2, maximizing, beta0, n)
    ensures n >= 1 ==> CutAfter(s1, maximizing, alpha0, beta0, n - 1) == CutAfter(s2, maximizing, alpha0, beta0, n - 1)
    decreases n
  {
    if n > 0 {
      PrefixDetermined(a, full, depth, maximizing, alpha0, beta0, s1, s2, n - 1);
      assert Some(s1[n - 1]) == Some(s2[n - 1]);
      assert s1[..n] == s1[..n - 1] + [s1[n - 1]];
      assert s2[..n] == s2[..n - 1] + [s2[n - 1]];
    }
    SamePrefixSameWindow(s1, s2, maximizing, alpha0, beta0, n);
  }

  /** The window in force at child `n`, and the cutoff test after the child
      before it, depend only on the first `n` values. */
  lemma SamePrefixSameWindow(s1: seq<int>, s2: seq<int>, maximizing: bool, alpha0: ExtInt, beta0: ExtInt, n: nat)
    requires n <= |s1| && n <= |s2| && s1[..n] == s2[..n]
    ensures AlphaAt(s1, maximizing, alpha0, n) == AlphaAt(s2, maximizing, alpha0, n)
    ensures BetaAt(s1, maximizing, beta0, n) == BetaAt(s2, maximizing, beta0, n)
    ensures n >= 1 ==> CutAfter(s1, maximizing, alpha0, beta0, n - 1) == CutAfter(s2, maximizing, alpha0, beta0, n - 1)
  {
    if n >= 1 {
      assert s1[..n - 1 + 1] == s1[..n];
      assert s2[..n - 1 + 1] == s2[..n];
    }
  }

  /** The loop throws at no more than one point. */
  lemma ThrowsAtUnique<S>(a: Agent<S>, full: seq<GameStateChild<S>>, depth: nat, maximizing: bool,
                          alpha0: ExtInt, beta0: ExtInt, s1: seq<int>, s2: seq<int>)
    requires depth >= 1
    requires ThrowsAt(a, full, depth, maximizing, alpha0, beta0, s1)
    requires ThrowsAt(a, full, depth, maximizing, alpha0, beta0, s2)
    ensures s1 == s2
  {
    if |s1| <= |s2| {
      PrefixDetermined(a, full, depth, maximizing, alpha0, beta0, s1, s2, |s1|);
      assert s1[..|s1|] == s1;
      if |s1| < |s2| {
        assert false;
      } else {
        assert s2[..|s2|] == s2;
      }
    } else {
      PrefixDetermined(a, full, depth, maximizing, alpha0, beta0, s1, s2, |s2|);
      assert false;
    }
  }

  /** A loop that finished (by a `break` or by running out of children)
      threw at no point. */
  lemma FinishedNeverThrows<S>(a: Agent<S>, cs: seq<GameStateChild<S>>, depth: nat, maximizing: bool,
                               alpha: ExtInt, beta: ExtInt, st: Scan<S>, seen: seq<int>)
    requires depth >= 1 && st.Scan? && 1 <= |st.seen| <= |cs|
    requires LevelLoop(a, cs, depth, maximizing, alpha, beta, st)
    ensures !ThrowsAt(a, cs, depth, maximizing, alpha, beta, seen)
  {
    if ThrowsAt(a, cs, depth, maximizing, alpha, beta, seen) {
      if |st.seen| <= |seen| {
        PrefixDetermined(a, cs, depth, maximizing, alpha, beta, st.seen, seen, |st.seen|);
      } else {
        PrefixDetermined(a, cs, depth, maximizing, alpha, beta, st.seen, seen, |seen|);
      }
      assert false;
    }
  }

  /** Exactly when a level throws: its loop aborts after the values `seen`
      iff the children before child `|seen|` were searched in their windows
      without a cutoff and the search of child `|seen|` in its window
      returned no node.  The level then throws (`LevelSpec`). */
  lemma LevelThrowsIff<S>(a: Agent<S>, node: GameStateChild<S>, depth: nat, alpha: ExtInt, beta: ExtInt, seen: seq<int>)
    requires depth >= 1
    ensures ThrowsAt(a, LevelChildren(a, node, depth), depth, IsMaxLevel(a.numPlys, depth), alpha, beta, seen)
      <==> LevelScan(a, node, depth, alpha, beta) == Aborted(seen)
  {
    var maximizing := IsMaxLevel(a.numPlys, depth);
    var cs := LevelChildren(a, node, depth);
    var st := LevelScan(a, node, depth, alpha, beta);
    LevelSpec(a, node, depth, alpha, beta);
    if ThrowsAt(a, cs, depth, maximizing, alpha, beta, seen) {
      if st.Scan? {
        FinishedNeverThrows(a, cs, depth, maximizing, alpha, beta, st, seen);
        assert false;
      } else {
        ThrowsAtUnique(a, cs, depth, maximizing, alpha, beta, st.seen, seen);
      }
    }
  }

  /** With the full window (-infinity, +infinity) nothing is pruned at the
      level: the child chosen is the first, in heuristic order, whose value
      is the best over ALL the children. */
  lemma FullWindowPicksFirstBest<S>(a: Agent<S>, node: GameStateChild<S>, depth: nat)
    requires depth >= 1
    requires AlphaBetaSearch(a, node, depth, NegInf, PosInf).Found?
    ensures var maximizing := IsMaxLevel(a.numPlys, depth);
      var cs := LevelChildren(a, node, depth);
      var st := LevelScan(a, node, depth, NegInf, PosInf);
      && st.Scan?
      && cs != []
      && |st.seen| == |cs|
      && AlphaBetaSearch(a, node, depth, NegInf, PosInf) == Found(cs[FirstBest(st.seen, maximizing)])
  {
    LevelSpec(a, node, depth, NegInf, PosInf);
  }

  /** The utilities of a list of children. */
  function Utilities<S>(a: Agent<S>, cs: seq<GameStateChild<S>>): (us: seq<int>)
    ensures |us| == |cs| && forall i :: 0 <= i < |cs| ==> us[i] == a.utility(cs[i].state)
  {
    seq(|cs|, i requires 0 <= i < |cs| => a.utility(cs[i].state))
  }

  /** One ply with the full window: the search returns the first child, in
      heuristic order, of best utility (maximum on a maximizing level,
      minimum otherwise), and `null` when there is no child. */
  lemma DepthOneFirstBest<S>(a: Agent<S>, node: GameStateChild<S>)
    ensures var maximizing := IsMaxLevel(a.numPlys, 1);
      var cs := LevelChildren(a, node, 1);
      AlphaBetaSearch(a, node, 1, NegInf, PosInf)
        == if cs == [] then Null else Found(cs[FirstBest(Utilities(a, cs), maximizing)])
  {
    var maximizing := IsMaxLevel(a.numPlys, 1);
    var cs := LevelChildren(a, node, 1);
    var st := LevelScan(a, node, 1, NegInf, PosInf);
    LevelSpec(a, node, 1, NegInf, PosInf);
    assert |cs| == |a.children(node.state, maximizing)| by {
      assert |multiset(cs)| == |multiset(a.children(node.state, maximizing))|;
    }
    if cs != [] {
      assert st.Scan? by {
        var start: Scan<S> := StartScan(maximizing, NegInf, PosInf);
        assert cs[|start.seen|..] == cs;
        ScanNeverAbortsAtDepthOne(a, cs, maximizing, start);
      }
      forall i | 0 <= i < |st.seen|
        ensures st.seen[i] == a.utility(cs[i].state)
      {
        assert SearchValue(a, cs[i], 0, AlphaAt(st.seen, maximizing, NegInf, i),
                           BetaAt(st.seen, maximizing, PosInf, i)) == Some(st.seen[i]);
      }
      assert st.seen == Utilities(a, cs);
    }
  }

  /** At depth one every child is searched at depth zero, which never fails. */
  lemma {:induction false} ScanNeverAbortsAtDepthOne<S>(a: Agent<S>, cs: seq<GameStateChild<S>>, maximizing: bool, st: Scan<S>)
    requires st.Scan?
    ensures ScanChildren(a, cs, 1, maximizing, st).Scan?
    decreases |cs|
  {
    if cs != [] {
      var st1 := Record(maximizing, st, cs[0], a.utility(cs[0].state));
      ScanNeverAbortsAtDepthOne(a, cs[1..], maximizing, st1.(alpha := Max(st1.v, st1.alpha)));
      ScanNeverAbortsAtDepthOne(a, cs[1..], maximizing, st1.(beta := Min(st1.v, st1.beta)));
    }
  }

  /** The root (depth = numPlys) maximizes and, for a non-negative ply
      count, levels alternate between maximizing and minimizing. */
  lemma LevelsAlternate(numPlys: nat, depth: nat)
    requires depth >= 1
    ensures IsMaxLevel(numPlys, numPlys)
    ensures IsMaxLevel(numPlys, depth) != IsMaxLevel(numPlys, depth - 1)
  {
  }

  /** A negative odd ply count (a misconfiguration the agent does not reject)
      makes every level a minimizing one, since Java's `%` gives -1. */
  lemma NegativeOddPlysNeverMaximize(numPlys: int, depth: nat)
    requires numPlys < 0 && numPlys % 2 == 1
    ensures !IsMaxLevel(numPlys, depth)
  {
  }
}

=== FILE: stable_sort.dfy ===
/** A stable insertion sort by an integer key, with the facts that pin it
    down: the result is a permutation of the input, ascending by key, and
    keeps the input order among elements of equal key. */
module StableSort {

  ghost predicate SortedBy<T>(xs: seq<T>, key: T -> int) {
    forall i, j :: 0 <= i < j < |xs| ==> key(xs[i]) <= key(xs[j])
  }

  /** The elements of `xs` whose key is `k`, in their order in `xs`. */
  function WithKey<T>(xs: seq<T>, key: T -> int, k: int): seq<T> {
    if xs == [] then []
    else (if key(xs[0]) == k then [xs[0]] else []) + WithKey(xs[1..], key, k)
  }

  lemma {:induction false} WithKeyAppend<T>(a: seq<T>, b: seq<T>, key: T -> int, k: int)
    ensures WithKey(a + b, key, k) == WithKey(a, key, k) + WithKey(b, key, k)
  {
    if a != [] {
      var head: seq<T> := if key(a[0]) == k then [a[0]] else [];
      assert (a + b)[0] == a[0];
      assert (a + b)[1..] == a[1..] + b;
      assert WithKey(a + b, key, k) == head + WithKey(a[1..] + b, key, k);
      WithKeyAppend(a[1..], b, key, k);
      assert WithKey(a, key, k) == head + WithKey(a[1..], key, k);
    } else {
      assert a + b == b;
    }
  }

  lemma {:induction false} WithKeyAbsent<T>(xs: seq<T>, key: T -> int, k: int)
    requires forall i :: 0 <= i < |xs| ==> key(xs[i]) != k
    ensures WithKey(xs, key, k) == []
  {
    if xs != [] {
      WithKeyAbsent(xs[1..], key, k);
    }
  }

  lemma HeadKeyOccurs<T>(xs: seq<T>, key: T -> int)
    requires xs != []
    ensures WithKey(xs, key, key(xs[0])) != []
    ensures WithKey(xs, key, key(xs[0]))[0] == xs[0]
  {
  }

  /** In a sorted sequence, a key that occurs is no smaller than the first. */
  lemma LeastKeyFirst<T>(xs: seq<T>, key: T -> int, k: int)
    requires xs != [] && SortedBy(xs, key)
    requires WithKey(xs, key, k) != []
    ensures key(xs[0]) <= k
  {
    if k < key(xs[0]) {
      WithKeyAbsent(xs, key, k);
    }
  }

  /** Inserts `x` after every element whose key does not exceed its own. */
  function Insert<T>(x: T, sorted: seq<T>, key: T -> int): (r: seq<T>)
    ensures |r| == |sorted| + 1
  {
    if sorted == [] then [x]
    else if key(x) < key(sorted[0]) then [x] + sorted
    else [sorted[0]] + Insert(x, sorted[1..], key)
  }

  lemma {:induction false} InsertPermutes<T>(x: T, sorted: seq<T>, key: T -> int)
    ensures multiset(Insert(x, sorted, key)) == multiset(sorted) + multiset{x}
  {
    if sorted != [] && key(x) >= key(sorted[0]) {
      InsertPermutes(x, sorted[1..], key);
      assert sorted == [sorted[0]] + sorted[1..];
    }
  }

  /** Every element of the insertion is `x` or an element of `sorted`. */
  lemma {:induction false} InsertElements<T>(x: T, sorted: seq<T>, key: T -> int)
    ensures forall y :: y in Insert(x, sorted, key) ==> y == x || y in sorted
  {
    if sorted != [] && key(x) >= key(sorted[0]) {
      InsertElements(x, sorted[1..], key);
    }
  }

  lemma {:induction false} InsertSorted<T>(x: T, sorted: seq<T>, key: T -> int)
    requires SortedBy(sorted, key)
    ensures SortedBy(Insert(x, sorted, key), key)
  {
    if sorted == [] {
    } else if key(x) < key(sorted[0]) {
      var r := Insert(x, sorted, key);
      assert r == [x] + sorted;
      forall i, j | 0 <= i < j < |r|
        ensures key(r[i]) <= key(r[j])
      {
        if i == 0 {
          assert r[j] == sorted[j - 1];
        } else {
          assert r[i] == sorted[i - 1] && r[j] == sorted[j - 1];
        }
      }
    } else {
      InsertSorted(x, sorted[1..], key);
      InsertSortedBehind(x, sorted, key);
    }
  }

  /** The step of `InsertSorted` where `x` goes behind the first element. */
  lemma InsertSortedBehind<T>(x: T, sorted: seq<T>, key: T -> int)
    requires sorted != [] && key(x) >= key(sorted[0])
    requires SortedBy(sorted, key) && SortedBy(Insert(x, sorted[1..], key), key)
    ensures SortedBy(Insert(x, sorted, key), key)
  {
    var rest := Insert(x, sorted[1..], key);
    assert Insert(x, sorted, key) == [sorted[0]] + rest;
    HeadKeyBelow(x, sorted, key);
    ConsSorted(sorted[0], rest, key);
  }

  /** A sorted sequence stays sorted behind an element whose key is no
      larger than any of its keys. */
  lemma ConsSorted<T>(h: T, rest: seq<T>, key: T -> int)
    requires SortedBy(rest, key)
    requires forall y :: y in rest ==> key(h) <= key(y)
    ensures SortedBy([h] + rest, key)
  {
    var r := [h] + rest;
    forall i, j | 0 <= i < j < |r|
      ensures key(r[i]) <= key(r[j])
    {
      if i == 0 {
        assert r[j] == rest[j - 1] && rest[j - 1] in rest;
      } else {
        assert r[i] == rest[i - 1] && r[j] == rest[j - 1];
      }
    }
  }

  /** Behind the first element, the insertion holds only keys no smaller
      than the first element's. */
  lemma HeadKeyBelow<T>(x: T, sorted: seq<T>, key: T -> int)
    requires sorted != [] && key(x) >= key(sorted[0]) && SortedBy(sorted, key)
    ensures forall y :: y in Insert(x, sorted[1..], key) ==> key(sorted[0]) <= key(y)
  {
    var tail := sorted[1..];
    InsertElements(x, tail, key);
    forall y | y in Insert(x, tail, key)
      ensures key(sorted[0]) <= key(y)
    {
      if y != x {
        var t :| 0 <= t < |tail| && tail[t] == y;
        assert sorted[t + 1] == y;
      }
    }
  }

  lemma {:induction false} InsertStable<T>(x: T, sorted: seq<T>, key: T -> int, k: int)
    requires SortedBy(sorted, key)
    ensures WithKey(Insert(x, sorted, key), key, k) == WithKey(sorted, key, k) + (if key(x) == k then [x] else [])
    decreases |sorted|
  {
    if sorted == [] {
      WithKeyAppend([x], [], key, k);
    } else if key(x) < key(sorted[0]) {
      InsertFront(x, sorted, key, k);
    } else {
      InsertStable(x, sorted[1..], key, k);
      InsertBehind(x, sorted, key, k);
    }
  }

  /** The step of `InsertStable` where `x` goes behind the first element. */
  lemma InsertBehind<T>(x: T, sorted: seq<T>, key: T -> int, k: int)
    requires sorted != [] && key(x) >= key(sorted[0])
    requires WithKey(Insert(x, sorted[1..], key), key, k)
      == WithKey(sorted[1..], key, k) + (if key(x) == k then [x] else [])
    ensures WithKey(Insert(x, sorted, key), key, k) == WithKey(sorted, key, k) + (if key(x) == k then [x] else [])
  {
    var tail := sorted[1..];
    var rest := Insert(x, tail, key);
    var mine: seq<T> := if key(x) == k then [x] else [];
    var head := WithKey([sorted[0]], key, k);
    var middle := WithKey(tail, key, k);
    assert Insert(x, sorted, key) == [sorted[0]] + rest;
    WithKeyAppend([sorted[0]], rest, key, k);
    assert sorted == [sorted[0]] + tail;
    WithKeyAppend([sorted[0]], tail, key, k);
    calc {
      WithKey(Insert(x, sorted, key), key, k);
      head + WithKey(rest, key, k);
      head + (middle + mine);
      { assert head + (middle + mine) == (head + middle) + mine; }
      (head + middle) + mine;
      WithKey(sorted, key, k) + mine;
    }
  }

  lemma InsertFront<T>(x: T, sorted: seq<T>, key: T -> int, k: int)
    requires SortedBy(sorted, key) && sorted != [] && key(x) < key(sorted[0])
    ensures WithKey(Insert(x, sorted, key), key, k) == WithKey(sorted, key, k) + (if key(x) == k then [x] else [])
  {
    var mine: seq<T> := if key(x) == k then [x] else [];
    assert Insert(x, sorted, key) == [x] + sorted;
    WithKeyAppend([x], sorted, key, k);
    assert WithKey([x], key, k) == mine;
    if key(x) == k {
      WithKeyAbsent(sorted, key, k);
    }
  }

  /** Stable insertion sort, ascending by `key`. */
  function SortBy<T>(xs: seq<T>, key: T -> int): (r: seq<T>)
    ensures |r| == |xs|
    ensures multiset(r) == multiset(xs)
    ensures SortedBy(r, key)
    ensures forall k :: WithKey(r, key, k) == WithKey(xs, key, k)
  {
    if xs == [] then []
    else
      var init := xs[..|xs| - 1];
      var last := xs[|xs| - 1];
      var sortedInit := SortBy(init, key);
      assert xs == init + [last];
      InsertSorted(last, sortedInit, key);
      InsertPermutes(last, sortedInit, key);
      forall k
        ensures WithKey(Insert(last, sortedInit, key), key, k) == WithKey(xs, key, k)
      {
        InsertStable(last, sortedInit, key, k);
        WithKeyAppend(init, [last], key, k);
      }
      Insert(last, sortedInit, key)
  }

  /** A sequence sorted by key is determined by its per-key subsequences:
      any two stable ascending sorts of the same input agree. */
  lemma {:induction false} StableSortUnique<T>(a: seq<T>, b: seq<T>, key: T -> int)
    requires SortedBy(a, key) && SortedBy(b, key)
    requires forall k :: WithKey(a, key, k) == WithKey(b, key, k)
    ensures a == b
    decreases |a|
  {
    if a == [] {
      if b != [] {
        HeadKeyOccurs(b, key);
        assert false;
      }
    } else if b == [] {
      HeadKeyOccurs(a, key);
      assert false;
    } else {
      var m := key(a[0]);
      HeadKeyOccurs(a, key);
      HeadKeyOccurs(b, key);
      LeastKeyFirst(a, key, key(b[0]));
      LeastKeyFirst(b, key, m);
      assert key(b[0]) == m;
      forall k
        ensures WithKey(a[1..], key, k) == WithKey(b[1..], key, k)
      {
        var head: seq<T> := if k == m then [a[0]] else [];
        assert WithKey(a, key, k) == head + WithKey(a[1..], key, k);
        assert WithKey(b, key, k) == head + WithKey(b[1..], key, k);
        assert WithKey(a[1..], key, k) == WithKey(a, key, k)[|head|..];
        assert WithKey(b[1..], key, k) == WithKey(b, key, k)[|head|..];
      }
      StableSortUnique(a[1..], b[1..], key);
      assert a == [a[0]] + a[1..] && b == [b[0]] + b[1..];
    }
  }
}

=== FILE: transition.dfy ===
/** The child constructor `GameState(parent, actionsTaken)`: copy the parent,
    then apply the joint action entry by entry. */
module Transition {
  import opened Wrappers
  import opened Grid
  import opened GameUnits
  import opened GameStates
  import opened Actions

  /** `performMove`: only the mover's coordinates change, by the direction's
      components. */
  function PerformMove(units: map<int, GameUnit>, id: int, d: Direction): (r: map<int, GameUnit>)
    requires id in units
    ensures r.Keys == units.Keys
    ensures r[id].name == units[id].name && r[id].id == units[id].id
    ensures r[id].hp == units[id].hp && r[id].attackDamage == units[id].attackDamage
    ensures XPosition(r[id]) == XPosition(units[id]) + XComponent(d)
    ensures YPosition(r[id]) == YPosition(units[id]) + YComponent(d)
    ensures forall k :: k in units && k != id ==> r[k] == units[k]
  {
    units[id := Moved(units[id], d)]
  }

  /** `removeUnitFromGameState`: drops the unit's id from every collection;
      the derived footman/archer views follow automatically. */
  function RemoveUnit(units: map<int, GameUnit>, u: GameUnit): (r: map<int, GameUnit>)
    ensures r.Keys == units.Keys - {u.id}
    ensures forall k :: k in r ==> r[k] == units[k]
  {
    units - {u.id}
  }

  /** `performAttack`.  A victim that is no longer present (an earlier entry
      of the same joint action killed it) makes the attack a no-op.  A
      missing attacker with a present victim is a null dereference (`None`).
      Otherwise the victim's hp becomes max(0, hp - attackDamage) and the
      victim is removed as soon as it reaches 0. */
  function PerformAttack(units: map<int, GameUnit>, attackerId: int, victimId: int): (r: Option<map<int, GameUnit>>)
    ensures r.None? <==> victimId in units && attackerId !in units
    ensures victimId !in units ==> r == Some(units)
    ensures r.Some? && victimId in units && WellKeyed(units) ==>
      var hp := units[victimId].hp - units[attackerId].attackDamage;
      && (victimId in r.value <==> hp > 0)
      && (victimId in r.value ==> r.value[victimId] == units[victimId].(hp := hp))
      && (forall k :: k != victimId ==> (k in r.value <==> k in units))
      && (forall k :: k in r.value && k != victimId ==> r.value[k] == units[k])
  {
    if victimId !in units then
      Some(units)
    else if attackerId !in units then
      None
    else
      var victim := units[victimId];
      var temp := victim.hp - units[attackerId].attackDamage;
      var hit := victim.(hp := if temp > 0 then temp else 0);
      var updated := units[victimId := hit];
      if hit.hp == 0 then Some(RemoveUnit(updated, hit)) else Some(updated)
  }

  /** One entry of `applyActions`.  Moving a unit that is not present is a
      null dereference. */
  function ApplyAction(units: map<int, GameUnit>, entry: (int, Action)): Option<map<int, GameUnit>> {
    match entry.1
    case Move(d) => if entry.0 in units then Some(PerformMove(units, entry.0, d)) else None
    case Attack(attacker, target) => PerformAttack(units, attacker, target)
  }

  /** `applyActions`: the entries in order; `None` if any entry dereferences
      a missing unit. */
  function ApplyActions(units: map<int, GameUnit>, ja: JointAction): Option<map<int, GameUnit>>
    decreases |ja|
  {
    if ja == [] then
      Some(units)
    else
      match ApplyAction(units, ja[0])
      case None => None
      case Some(next) => ApplyActions(next, ja[1..])
  }

  /** `applyActions` visits the entries in list order: applying `a + b` is
      applying `a`, then `b`, and a failing entry fails the whole. */
  lemma {:induction false} ApplyActionsAppend(units: map<int, GameUnit>, a: JointAction, b: JointAction)
    ensures ApplyActions(units, a + b) ==
      match ApplyActions(units, a)
      case None => None
      case Some(m) => ApplyActions(m, b)
    decreases |a|
  {
    if a == [] {
      assert a + b == b;
    } else {
      assert (a + b)[0] == a[0];
      assert (a + b)[1..] == a[1..] + b;
      match ApplyAction(units, a[0])
      case None =>
      case Some(n) => ApplyActionsAppend(n, a[1..], b);
    }
  }

  /** `GameState(parent, actionsTaken)`: extents and obstacles are carried
      over, the ply counter advances by one.  The parent is a value and is
      therefore left unchanged. */
  function ChildState(parent: GameState, ja: JointAction): (r: Option<GameState>)
    ensures r.Some? <==> ApplyActions(parent.units, ja).Some?
    ensures r.Some? ==>
      && r.value.units == ApplyActions(parent.units, ja).value
      && r.value.xExtent == parent.xExtent
      && r.value.yExtent == parent.yExtent
      && r.value.resourceLocations == parent.resourceLocations
      && r.value.depth == parent.depth + 1
  {
    match ApplyActions(parent.units, ja)
    case None => None
    case Some(units) => Some(GameState(units, parent.resourceLocations, parent.xExtent, parent.yExtent, parent.depth + 1))
  }

  /** Total horizontal displacement the joint action gives unit `k`. */
  function OffsetX(ja: JointAction, k: int): int {
    if ja == [] then 0
    else (if ja[0].0 == k && ja[0].1.Move? then XComponent(ja[0].1.dir) else 0) + OffsetX(ja[1..], k)
  }

  /** Total vertical displacement the joint action gives unit `k`. */
  function OffsetY(ja: JointAction, k: int): int {
    if ja == [] then 0
    else (if ja[0].0 == k && ja[0].1.Move? then YComponent(ja[0].1.dir) else 0) + OffsetY(ja[1..], k)
  }

  predicate AllAlive(units: map<int, GameUnit>) {
    forall k :: k in units ==> units[k].hp > 0
  }

  /** What a successful transition preserves: no unit appears, ids, names and
      attack damage are unchanged, every unit is displaced by exactly its own
      move entries, and if every unit starts alive, every survivor is
      alive. */
  lemma {:induction false} ApplyActionsFrame(units: map<int, GameUnit>, ja: JointAction)
    requires WellKeyed(units)
    requires ApplyActions(units, ja).Some?
    ensures var r := ApplyActions(units, ja).value;
      && WellKeyed(r)
      && r.Keys <= units.Keys
      && (AllAlive(units) ==> AllAlive(r))
      && forall k :: k in r ==>
           && r[k].name == units[k].name
           && r[k].attackDamage == units[k].attackDamage
           && r[k].location == Pos(units[k].location.x + OffsetX(ja, k), units[k].location.y + OffsetY(ja, k))
    decreases |ja|
  {
    if ja != [] {
      var next := ApplyAction(units, ja[0]).value;
      assert WellKeyed(next);
      assert AllAlive(units) ==> AllAlive(next);
      ApplyActionsFrame(next, ja[1..]);
    }
  }
}

=== FILE: utility.dfy ===
/** The integer terms of `getUtility`: a weighted sum of the footmen's and
    archers' hp and of how many of each are alive. */
module Utility {
  import opened GameUnits
  import opened GameStates
  import opened IdOrder
  import opened Transition
  import opened Grid
  import opened Wrappers

  const WeightFootmanHp: int := 1
  const WeightArcherHp: int := -2
  const WeightFootmanAlive: int := 10
  const WeightArcherAlive: int := -20

  /** Sum of `f` over the units of `m`, visited in ascending id order. */
  function Sum(m: map<int, GameUnit>, f: GameUnit -> int): int
    decreases |m|
  {
    if |m| == 0 then 0
    else
      var k := MinOf(m.Keys);
      f(m[k]) + Sum(m - {k}, f)
  }

  function FootmanHp(u: GameUnit): int {
    if IsFootman(u) then u.hp else 0
  }

  function ArcherHp(u: GameUnit): int {
    if IsFootman(u) then 0 else u.hp
  }

  function FootmanAlive(u: GameUnit): int {
    if IsFootman(u) && u.hp > 0 then 1 else 0
  }

  function ArcherAlive(u: GameUnit): int {
    if !IsFootman(u) && u.hp > 0 then 1 else 0
  }

  /** `getUtility` without its Euclidean-distance term. */
  function UtilityOf(units: map<int, GameUnit>): int {
    WeightFootmanHp * Sum(units, FootmanHp)
      + WeightArcherHp * Sum(units, ArcherHp)
      + WeightFootmanAlive * Sum(units, FootmanAlive)
      + WeightArcherAlive * Sum(units, ArcherAlive)
  }

  function GetUtility(s: GameState): int {
    UtilityOf(s.units)
  }

  /** A sum of 0/1 terms counts the units whose term is 1. */
  lemma {:induction false} SumCounts(m: map<int, GameUnit>, f: GameUnit -> int, ids: set<int>)
    requires ids <= m.Keys
    requires forall k :: k in m ==> f(m[k]) == (if k in ids then 1 else 0)
    ensures Sum(m, f) == |ids|
    decreases |m|
  {
    if |m| != 0 {
      var k := MinOf(m.Keys);
      var rest := m - {k};
      SumCounts(rest, f, ids - {k});
      if k in ids {
        assert ids == (ids - {k}) + {k};
      } else {
        assert ids == ids - {k};
      }
    }
  }

  /** On a state whose units are all alive, the alive terms of `getUtility`
      count the footmen and the archers. */
  lemma UtilityOfLiveState(s: GameState)
    requires AllAlive(s.units)
    ensures GetUtility(s) ==
      Sum(s.units, FootmanHp) - 2 * Sum(s.units, ArcherHp) + 10 * |FootmanIds(s)| - 20 * |ArcherIds(s)|
  {
    SumCounts(s.units, FootmanAlive, FootmanIds(s));
    SumCounts(s.units, ArcherAlive, ArcherIds(s));
  }

  /** The sum splits off any one unit, whatever the visiting order. */
  lemma {:induction false} SumRemove(m: map<int, GameUnit>, k: int, f: GameUnit -> int)
    requires k in m
    ensures Sum(m, f) == f(m[k]) + Sum(m - {k}, f)
    decreases |m|
  {
    var least := MinOf(m.Keys);
    if least != k {
      var rest := m - {least};
      assert k in rest;
      SumRemove(rest, k, f);
      assert rest - {k} == (m - {k}) - {least};
      assert MinOf((m - {k}).Keys) == least;
    }
  }

  /** Replacing one unit changes the sum by the difference of its terms. */
  lemma SumUpdate(m: map<int, GameUnit>, k: int, u: GameUnit, f: GameUnit -> int)
    requires k in m
    ensures Sum(m[k := u], f) == Sum(m, f) - f(m[k]) + f(u)
  {
    SumRemove(m, k, f);
    SumRemove(m[k := u], k, f);
    assert m[k := u] - {k} == m - {k};
  }

  /** Moving a unit leaves the utility unchanged: no integer term depends on
      positions. */
  lemma MoveKeepsUtility(units: map<int, GameUnit>, id: int, d: Direction)
    requires id in units
    ensures UtilityOf(PerformMove(units, id, d)) == UtilityOf(units)
  {
    var moved := Moved(units[id], d);
    assert PerformMove(units, id, d) == units[id := moved];
    SumUpdate(units, id, moved, FootmanHp);
    SumUpdate(units, id, moved, ArcherHp);
    SumUpdate(units, id, moved, FootmanAlive);
    SumUpdate(units, id, moved, ArcherAlive);
  }

  /** A footman's attack on a live archer raises the utility by twice the hp
      taken and, when the archer dies, by its 20-point alive bonus as well. */
  lemma AttackUtilityGain(units: map<int, GameUnit>, attacker: int, victim: int)
    requires WellKeyed(units)
    requires attacker in units && victim in units
    requires !IsFootman(units[victim]) && units[victim].hp > 0
    ensures PerformAttack(units, attacker, victim).Some?
    ensures var h := units[victim].hp;
      var dmg := units[attacker].attackDamage;
      UtilityOf(PerformAttack(units, attacker, victim).value) - UtilityOf(units)
        == if h - dmg > 0 then 2 * dmg else 2 * h + 20
  {
    var v := units[victim];
    var h := v.hp;
    var dmg := units[attacker].attackDamage;
    var r := PerformAttack(units, attacker, victim).value;
    if h - dmg > 0 {
      assert r == units[victim := v.(hp := h - dmg)];
      SumUpdate(units, victim, v.(hp := h - dmg), FootmanHp);
      SumUpdate(units, victim, v.(hp := h - dmg), ArcherHp);
      SumUpdate(units, victim, v.(hp := h - dmg), FootmanAlive);
      SumUpdate(units, victim, v.(hp := h - dmg), ArcherAlive);
    } else {
      assert r == units - {victim};
      SumRemove(units, victim, FootmanHp);
      SumRemove(units, victim, ArcherHp);
      SumRemove(units, victim, FootmanAlive);
      SumRemove(units, victim, ArcherAlive);
    }
  }
}

=== FILE: wrappers.dfy ===
/** Failure-compatible wrapper used where the Java code returns `null` or
    would dereference one. */
module Wrappers {

  /** `None` stands for a Java `null` (or for the exception it causes). */
  datatype Option<+T> = None | Some(value: T)
}
